=== FILE: README.md ===
# dioxus-mosaic layout engine in Dafny

A model of the layout core of dioxus-mosaic, a tiling window layout library
for Dioxus. A layout is a binary tree of panes. Inner nodes are *splits*
(horizontal = left | right, vertical = top | bottom, with a percentage and
min/max bounds). Leaves are *tiles* holding a caller-chosen content key. The
engine stores the tree as an arena: a map from node handle to node record
(each record has its own handle, child handles and a parent back-reference),
an optional root and a handle counter that only grows.

The model covers:

- **The arena** (`Layouts`): creating a layout, issuing handles, finding a
  tile by key, resizing a split, splitting a tile, closing a tile (promoting
  the sibling), drag-and-drop relocation (`insert_tile_with_split`) and
  listing tiles in order.
- **The node records** (`Nodes`) and their accessors, and the shared
  vocabulary (`Types`): split direction, `opposite`, float `clamp`.
- **The declarative tree** (`TreeApi`): `MosaicNode`, and the converters
  `from_tree` and `to_tree`.
- **The fluent builder** (`Builder`).
- **Drag state and drop zones** (`DragDrop`): the cursor-to-zone rule and
  the drag state machine.

Every operation is a pure function that returns the new layout, plus the
engine's success flag where there is one. A refused operation returns the
layout unchanged.

## How the proofs are organised

`Trees` defines an inductive tree (`Tree`) with the same handles and
metadata as the arena. `LayoutProofs.Models(l, t)` says that layout `l` is a
faithful arena encoding of `t`:

- the root is right;
- every node is stored under its handle, with matching child and parent
  handles;
- there are no other entries;
- handles are distinct and below the counter;
- split bounds lie in [0, 100].

For each operation there is a lemma showing that a layout storing `t` is
mapped to a layout storing an explicitly named tree:

- split gives `ReplaceSub(t, k, SplitFork(...))`;
- close gives `Prune(t, k)`, which `Trees.PruneIsReplace` shows is "the
  sibling takes the parent's slot";
- drop gives `ReplaceSub(Prune(t, dk), tk, DropFork(...))`;
- resize gives `ReplaceSub(t, k, WithPercentage(...))`.

So every operation preserves well-formedness, and its result is pinned down
node by node (`LayoutProofs.ModelsInjective`). Tile-sequence, node-count and
round-trip facts follow from these tree-level statements.

Modelling decisions:

- **Handles.** Node handles are the counter values (`nat`). The engine
  formats them as `"node_<n>"`, which is injective, so nothing is lost.
- **Duplicate tile keys.** `find_tile` scans a hash map, so with duplicate
  keys the match is unspecified. The model takes the lowest matching
  handle. Every property proved holds whichever match is taken on a layout
  whose keys are distinct, and the proofs do not assume distinct keys.
  `find_tile` returns the matching record's own `id` field, while
  `Layouts.FindTile` returns the map key it is stored under. The two agree
  whenever every record is stored under its own id, which holds in every
  well-formed layout (`LayoutProofs.FindTileModel`).
- **Accessors.** `id()` and `parent()` are the `id` and `parent` fields,
  which both node variants share. `root()` is the `root` field and
  `is_empty` is `Layouts.IsEmpty`. The crate-internal helpers `set_root`,
  `insert_node` and `get_node` are `Layouts.SetRoot`, `Layouts.InsertNode`
  and `Layouts.GetNode`.
- **Percentages** are reals.
- **Builder panics.** `build_tree` and `build` panic when a child is unset;
  the model returns `None`.
- **Clamp preconditions.** `clamp` panics when min > max, so `Types.Clamp`
  requires the bounds to be ordered. `Layouts.UpdateSplit` requires it only
  of an unlocked split, the only kind that reaches the clamp: a locked split
  is refused first, whatever its bounds. Every layout the engine builds has
  ordered bounds: `Models` includes it.
- **Unclamped `from_tree` percentages.** Splitting and resizing always
  leave a split's percentage within its 20/80 bounds, and one would expect
  that of every layout. `from_tree` does not keep it: it copies the
  caller's percentage unclamped (tree_api.rs:111), as
  `TreeApi.FromTreeKeepsPercentage` shows. The model follows the code, so
  `Models` does not include "percentage within bounds".

## Model

| member | source | states |
|---|---|---|
| Types.SplitDirection.Opposite | src/types.rs:20-25 | the opposite direction is always the other one: horizontal maps to vertical and vice versa |
| Types.OppositeInvolutive | src/types.rs:20-25 | taking the opposite twice gives back the original direction |
| Types.Clamp | src/layout.rs:125 | the clamped value lies in [lo, hi] and is the point of that interval nearest the input; lo <= hi is required, as float clamp panics otherwise |
| Nodes.Node.SetParent | src/node.rs:76-81 | reading the parent after setting it gives the new parent; handle, kind, children, key, lock and bounds are unchanged |
| Nodes.Node.Children | src/node.rs:94-99 | child handles are present exactly for a split and are its first and second child |
| Nodes.Node.WithChildReplaced | src/layout.rs:265-273 | only a split changes: a matching first child is redirected, otherwise a matching second child; everything else is kept |
| Nodes.Node.IsSplit | src/node.rs:84-86 | true exactly for a split; `Nodes.KindsExclusive` gives its meaning: it holds exactly when `IsTile` does not |
| Nodes.Node.IsTile | src/node.rs:89-91 | true exactly for a tile; `Nodes.KindsExclusive` gives its meaning: it holds exactly when `IsSplit` does not |
| Nodes.KindsExclusive | src/node.rs:84-91 | every node is exactly one of split or tile |
| Trees.PruneIsReplace | src/layout.rs:229-259 | removing a non-root leaf equals replacing its parent split by the leaf's sibling, so the sibling takes the parent's slot |
| Layouts.New | src/layout.rs:24-42 | a one-node layout: handle 0 is the root, an unlocked parentless tile with the key; the counter is at 1 |
| Layouts.Empty | src/layout.rs:45-51 | no nodes, no root, counter at 0 |
| Layouts.GenId | src/layout.rs:59-63 | the handle issued is the current counter and the counter grows by exactly one; on a layout whose handles were all issued the new handle is unused and stays below the counter |
| Layouts.IsEmpty | src/layout.rs:54-56 | empty exactly when there is no root; `LayoutProofs.EmptyHasNoTiles` gives its meaning: an empty layout lists no tiles and a well-formed one is never empty |
| Layouts.SetRoot | src/layout.rs:71-73 | the root becomes the given handle; nodes and counter are unchanged |
| Layouts.InsertNode | src/layout.rs:84-86 | the key set gains the handle, which now maps to the given node; every other entry, the root and the counter are unchanged |
| Layouts.GetNode | src/layout.rs:89-91 | a node exactly when the handle is present, and then the stored one |
| Layouts.RemoveTempTiles | src/layout.rs:76-81 | a node is kept exactly when it is not a tile with the placeholder key; kept nodes are unchanged, as are root and counter |
| Layouts.FindTile | src/layout.rs:101-108 | the result is the handle of a tile with that key; nothing exactly when no tile has the key; with duplicates, the lowest handle |
| Layouts.UpdateSplit | src/layout.rs:113-130 | refused exactly for a missing handle, a tile or a locked split, and then nothing changes; otherwise only that split's percentage changes, to the requested one clamped into the split's own bounds; ordered bounds are required only of an unlocked split, since a locked one is refused before the clamp |
| Layouts.ReplaceChild | src/layout.rs:265-273 | the key set is unchanged, only the parent entry changes, and it changes as the per-node replacement says |
| Layouts.SplitTile | src/layout.rs:135-200 | refused exactly when no tile has the key, and then nothing changes; otherwise exactly the two handles issued are added and the counter moves by two |
| Layouts.Unlink | src/layout.rs:229-259 | fails exactly when the parent is missing or not a split; otherwise the tile and its parent leave the map and nothing else does |
| Layouts.CloseTile | src/layout.rs:206-262 | refused for a missing or locked tile, and then nothing changes; on success the tile's handle is gone, the key set strictly shrinks and the counter is kept |
| Layouts.Graft | src/layout.rs:366-416 | exactly the new split's handle and the dragged handle are added; one handle is issued |
| Layouts.CollectTiles | src/layout.rs:429-441 | the walk below a handle; `LayoutProofs.GetAllTilesModel` gives its meaning: below a stored subtree it lists that subtree's leaf keys in pre-order |
| Layouts.GetAllTiles | src/layout.rs:420-426 | the walk from the root; `LayoutProofs.GetAllTilesModel` gives its meaning: a well-formed layout lists its tree's leaf keys in pre-order |
| Layouts.InsertTileWithSplit | src/layout.rs:282-417 | refused (layout unchanged) for a drop on itself, a missing tile or a locked target; on success one handle is issued |
| LayoutProofs.ModelsDetermineNodes | src/layout.rs:6-20 | in a well-formed layout each entry is exactly the record of the subtree at its handle, with its parent |
| LayoutProofs.GetAllTilesModel | src/layout.rs:420-441 | the tile list of a well-formed layout is the pre-order leaf sequence of its tree |
| LayoutProofs.ModelsNodeCount | src/layout.rs:498-538 | a well-formed layout has one node fewer than twice its number of tiles |
| LayoutProofs.FindTileModel | src/layout.rs:101-108 | a key is found exactly when it is in the tile list, and the handle found is a leaf of the tree with that key and parent, whose record's own id is that handle, so it is what the engine returns |
| LayoutProofs.NewModels | src/layout.rs:491-495 | a new layout stores the single unlocked leaf, has one node and lists exactly its key |
| LayoutProofs.EmptyHasNoTiles | src/layout.rs:540-546 | a rootless layout is empty and lists no tiles; a well-formed one is not empty |
| LayoutProofs.UpdateSplitModel | src/layout.rs:113-130 | a successful resize stores the same tree with that one fork's percentage replaced by the clamped value; the tile list is unchanged |
| LayoutProofs.SplitTileModel | src/layout.rs:135-200 | succeeds exactly when the key is in the tile list; the result stores the tree with that leaf (same handle) replaced by a fork of it and the new unlocked tile, with the percentage clamped to 20..80 and bounds 20/80 |
| LayoutProofs.SplitTileTiles | src/layout.rs:498-512 | the split key's entry in the tile list becomes the key followed by the new key, and the node count grows by two |
| LayoutProofs.UnlinkModel | src/layout.rs:229-259 | detaching a non-root leaf yields a well-formed layout storing the tree with that leaf pruned |
| LayoutProofs.CloseTileModel | src/layout.rs:206-262 | succeeds exactly when the key is present and its tile unlocked; closing the root tile gives the empty layout, otherwise the result stores the pruned tree |
| LayoutProofs.CloseTileTiles | src/layout.rs:515-538 | a successful close removes exactly the closed key's entry from the tile list and two nodes, unless it was the last tile |
| LayoutProofs.ModelsInjective | src/layout.rs:6-20 | two layouts storing the same tree have the same nodes and root |
| LayoutProofs.SplitThenClose | src/layout.rs:515-528 | closing the tile a split just created restores the original layout, except that the counter has moved by two |
| LayoutProofs.FoundNewTile | src/layout.rs:155-161 | after a split with a fresh key, the only tile showing that key is the one just created |
| LayoutProofs.DropFork | src/layout.rs:372-393 | the drop split has the zone's direction, 50%, bounds 20/80, is unlocked, and puts the dragged tile first exactly when the zone says so |
| LayoutProofs.GraftModel | src/layout.rs:366-416 | grafting the detached tile beside the target stores the tree with the target replaced by the drop split |
| LayoutProofs.DraggedHasParent | src/layout.rs:360-364 | when both keys are distinct and present, the dragged tile is never the root, so the root-removal branch is unreachable |
| LayoutProofs.InsertModel | src/layout.rs:282-417 | succeeds exactly for distinct present keys with an unlocked target; the result stores the tree with the dragged leaf pruned and the target leaf replaced by the drop split |
| LayoutProofs.InsertTiles | src/layout.rs:282-417 | on success the dragged key leaves its place and the target key is replaced by the pair in zone order; the tile multiset is unchanged |
| LayoutProofs.InsertNodeCount | src/layout.rs:282-417 | a successful drop keeps the node count |
| LayoutProofs.DragOntoSibling | src/layout.rs:328-416 | dropping a tile onto its own sibling replaces their parent by a fresh split of the two |
| DragDrop.DropZone.SplitDirection | src/drag_drop.rs:21-26 | top and bottom give a vertical split, left and right a horizontal one |
| DragDrop.DropZone.DraggedIsFirst | src/drag_drop.rs:29-34 | true for top and left; `DragDrop.ZoneFor` and `DragDrop.ZoneShapeInjective` give its meaning: with the split direction it fixes the zone |
| DragDrop.ZoneFor | src/drag_drop.rs:21-34 | the zone built from a direction and an order has that direction and order |
| DragDrop.ZoneShapeInjective | src/drag_drop.rs:21-34 | a zone is determined by its split direction together with whether the dragged tile goes first |
| DragDrop.CalculateDropZone | src/drag_drop.rs:87-115 | top exactly when the cursor is in the upper 30% (or above); bottom exactly when lower 30% otherwise; then left, right; nothing exactly in the centre |
| DragDrop.DropZoneEdgeCases | src/drag_drop.rs:96-114 | corners and points outside the rectangle clamp to the edge zones; the exact 30%/70% lines and the centre are no-drop |
| DragDrop.DragState.IsDragging | src/drag_drop.rs:55-57 | true exactly when a tile is being dragged; `StartDrag` sets it, `NewDragState` and `EndDrag` clear it, and `DragDrop.DraggingDecidedByLastToggle` shows only the last start or end event decides it |
| DragDrop.DragState.StartDrag | src/drag_drop.rs:59-63 | dragging the key at the position, with no hover target |
| DragDrop.DragState.UpdatePosition | src/drag_drop.rs:65-67 | only the position changes |
| DragDrop.DragState.UpdateHover | src/drag_drop.rs:69-71 | only the hover target changes, to the given tile and zone |
| DragDrop.DragState.ClearHover | src/drag_drop.rs:73-75 | only the hover target is cleared |
| DragDrop.DragState.EndDrag | src/drag_drop.rs:77-81 | the state returns to the initial one |
| DragDrop.NewDragState | src/drag_drop.rs:51-53 | not dragging, position (0, 0), no hover target |
| DragDrop.LastToggle | src/drag_drop.rs:55-81 | the index of the last start or end event, and nothing exactly when there is none |
| DragDrop.DraggingDecidedByLastToggle | src/drag_drop.rs:55-81 | after any event sequence, whether and what is dragged depends only on the last start or end event |
| TreeApi.MosaicNode.Horizontal | src/tree_api.rs:25-32 | a horizontal split whose children are exactly the two given trees, in order, with the percentage; its tiles are the first's then the second's |
| TreeApi.MosaicNode.Vertical | src/tree_api.rs:35-42 | a vertical split whose children are exactly the two given trees, in order, with the percentage; its tiles are the first's then the second's |
| TreeApi.Tile | src/tree_api.rs:45-53 | a single node whose only tile is the key |
| TreeApi.LabelShape | src/tree_api.rs:77-121 | the stored tree uses exactly the consecutive handles from the counter, none twice, has valid bounds, no locks and 20/80 bounds, the same tiles, and forgets back to the input tree |
| TreeApi.InsertTreeRecursive | src/tree_api.rs:77-121 | returns the counter's current value as the subtree's handle and advances the counter by the subtree's size; the root is untouched |
| TreeApi.InsertTreeModel | src/tree_api.rs:77-121 | the inserted nodes store the labelled tree under the given parent, exactly the handle range is added and older entries are kept |
| TreeApi.FromTree | src/tree_api.rs:57-74 | the corrected conversion (see Findings): a leaf gives `new`, a split is inserted below a placeholder that is then removed by handle; `TreeApi.FromTreeModel` and `TreeApi.RoundTrip` give its meaning |
| TreeApi.FromTreeModel | src/tree_api.rs:57-74 | the converted layout is well formed and stores the labelled tree; the counter ends one past the last handle issued |
| TreeApi.FromTreeNodeCount | src/tree_api.rs:57-74 | the converted layout has exactly one node per node of the tree, all unlocked with 20/80 bounds |
| TreeApi.FromTreeTiles | src/tree_api.rs:158-199 | the converted layout lists the tree's tiles in order |
| TreeApi.FromTreeKeepsPercentage | src/tree_api.rs:106-116 | for a two-tile split, the root split stores the given percentage unchanged, whatever it is, with bounds 20/80; the general fact follows from `TreeApi.FromTreeModel`, whose stored tree erases to the input |
| TreeApi.NodeToTree | src/tree_api.rs:130-151 | the read below a handle, with `Leaf("error")` for a missing one; `TreeApi.NodeToTreeModel` gives its meaning: below a stored subtree it yields that subtree's erasure |
| TreeApi.ToTree | src/tree_api.rs:125-127 | nothing exactly for an empty layout |
| TreeApi.NodeToTreeModel | src/tree_api.rs:130-151 | reading below a stored subtree gives that subtree without handles, locks and bounds; the error fallback is never reached |
| TreeApi.ToTreeModel | src/tree_api.rs:125-151 | a well-formed layout reads back as its stored tree |
| TreeApi.RoundTrip | src/tree_api.rs:202-214 | converting any tree to a layout and back gives the same tree |
| TreeApi.LayoutRoundTrip | src/tree_api.rs:202-214 | converting a well-formed layout to a tree and back reads as the same tree and lists the same tiles |
| TreeApi.EmptyToTree | src/tree_api.rs:216-221 | the empty layout reads as no tree |
| TreeApi.FromTreeAsWritten | src/tree_api.rs:57-74 | the conversion as written, removing every tile keyed like the placeholder; `TreeApi.FromTreeAsWrittenAgrees` and `TreeApi.TempLeafDropped` give its meaning |
| TreeApi.FromTreeAsWrittenRoundTrip | src/tree_api.rs:57-74 | as written, every tree without a tile keyed like the placeholder converts and reads back as itself, and lists its tiles in order |
| TreeApi.FromTreeAsWrittenAgrees | src/tree_api.rs:57-74 | when no tile uses the placeholder key, the conversion as written equals the corrected one |
| TreeApi.TempLeafDropped | src/tree_api.rs:60-71 | as written, a caller tile keyed like the placeholder vanishes from the tile list and reads back as the error tile; the corrected conversion keeps it |
| Builder.MosaicBuilder.Horizontal | src/builder.rs:32-39 | a horizontal builder with no children at 50% |
| Builder.MosaicBuilder.Vertical | src/builder.rs:42-49 | a vertical builder with no children at 50% |
| Builder.MosaicBuilder.First | src/builder.rs:52-55 | sets the first child and nothing else |
| Builder.MosaicBuilder.Second | src/builder.rs:58-61 | sets the second child and nothing else |
| Builder.MosaicBuilder.Left | src/builder.rs:64-66 | sets the first child and keeps the second |
| Builder.MosaicBuilder.Right | src/builder.rs:69-71 | sets the second child and keeps the first |
| Builder.MosaicBuilder.Top | src/builder.rs:74-76 | sets the first child and keeps the second |
| Builder.MosaicBuilder.Bottom | src/builder.rs:79-81 | sets the second child and keeps the first |
| Builder.MosaicBuilder.Split | src/builder.rs:84-87 | the percentage is clamped into [0, 100]: kept when inside, the nearer end otherwise; nothing else changes |
| Builder.MosaicBuilder.BuildTree | src/builder.rs:90-100 | a tree exactly when both children are set: a split of them with the builder's direction and percentage |
| Builder.MosaicBuilder.Build | src/builder.rs:103-106 | through the corrected conversion (see Findings): a layout exactly when both children are set, listing the first child's tiles then the second's |
| Builder.MosaicBuilder.BuildAsWritten | src/builder.rs:103-106 | the engine's `build`: a layout exactly when both children are set; when no child tile is keyed like the placeholder it equals `Build`, reads back as the built tree and lists the first child's tiles then the second's |
| Builder.BuildAsWrittenDropsTemp | src/builder.rs:103-106 | building a horizontal split of a tile keyed like the placeholder and `b` lists only `b` through the engine's `build`, and both tiles through the corrected `Build` |
| Builder.SettersCommute | src/builder.rs:52-87 | the two child setters commute, the last write wins, and the aliases are the child setters |
| Builder.BuildModel | src/builder.rs:103-106 | a built layout is well formed and reads back as the built tree |
| Builder.NestedExample | src/builder.rs:141-162 | the sidebar / editor / terminal example lists its tiles in that order |

## Left out

- UI components (the mosaic root, tile and split panes, the drag ghost) and `get_drop_zone_style`: rendering only, no layout logic.
- `save_to_storage`, `load_from_storage`, `clear_storage`: browser storage and JSON (de)serialisation are I/O.
- `get_node_mut`: mutable borrowing has no counterpart in a value model; each operation's in-place edits are written out instead.
- `Default` for the layout: it is `new("default")`, which `Layouts.New` covers.
- Floating point: percentages and coordinates are reals, so NaN, infinities and rounding are not modelled.
- DragDrop.CalculateDropZone: requires a positive width and height. With a zero-size rectangle the float division yields NaN or an infinity, which reals cannot express.
- Layouts.FindTile: takes the lowest matching handle where the engine's hash-map scan picks an unspecified one, which matters only when a key is duplicated. It also returns the map key under which the tile is stored, where the engine returns the record's own `id` field. These differ only on an arena holding a record under another handle than its id, which no engine operation builds; on a well-formed layout `LayoutProofs.FindTileModel` shows the found record's id is the handle.
- Layouts.CollectTiles, TreeApi.NodeToTree: each recursive step walks the map without the node just visited, so the walk ends on any map. On a well-formed layout this gives the same result as the engine's walk (`GetAllTilesModel`, `NodeToTreeModel`). On a malformed cyclic map the engine would not terminate.
- TreeApi.FromTree: removes only the placeholder's own handle 0, not every tile keyed `"__temp__"` as the engine does (see Findings). On trees without such a tile the two agree (`TreeApi.FromTreeAsWrittenAgrees`); the engine's behaviour is kept as `TreeApi.FromTreeAsWritten`.
- Builder.MosaicBuilder.Build: converts through the corrected `TreeApi.FromTree`, so a child tile keyed `"__temp__"` is kept where the engine's `build` drops it. The engine's behaviour is `Builder.MosaicBuilder.BuildAsWritten`, equal to `Build` whenever no child tile uses that key.
- Lock flags: no operation of the core ever sets one. They are modelled as data, and the refusal branches for locked nodes are modelled.
- Layouts.InsertTileWithSplit: the branch that drops the root tile is modelled but unreachable whenever both keys are present and distinct (`DraggedHasParent`).

## Findings

| source | as written | input that shows it | evidently intended | confidence | as-written member | corrected member |
|---|---|---|---|---|---|---|
| src/tree_api.rs:60-71 with src/layout.rs:76-81 | `from_tree` removes its placeholder by deleting every tile keyed `"__temp__"`. A caller's own tile with that key is deleted too, leaving its parent split with a dangling child. | `MosaicNode::horizontal(tile("__temp__"), tile("b"), 50.0)`: the tile list is `["b"]`, and `to_tree` reads the first child as `Leaf("error")` | remove only the placeholder node itself (handle 0), so every tree round-trips | not executed | TreeApi.TempLeafDropped | TreeApi.RoundTrip |

In the Dafny, `TreeApi.FromTreeAsWritten` is the conversion as written.
`TreeApi.FromTree`, which the rest of the model uses, removes only handle
0. `TreeApi.FromTreeAsWrittenAgrees` shows the two coincide whenever no
tile uses the placeholder key, and `TreeApi.FromTreeAsWrittenRoundTrip`
that the conversion as written round-trips such trees. The builder has the
same pair: `Builder.MosaicBuilder.BuildAsWritten` is the engine's `build`,
`Builder.MosaicBuilder.Build` uses the corrected conversion, and
`Builder.BuildAsWrittenDropsTemp` shows the builder input on which they
differ.

=== FILE: builder.dfy ===
/** The fluent builder: a split direction, two optional children and a
    percentage, assembled into a declarative tree and then a layout. Building
    with a child unset is the engine's panic; the model returns nothing. */
module Builder {
  import opened Types
  import opened Layouts
  import opened LayoutProofs
  import opened TreeApi

  datatype MosaicBuilder = MosaicBuilder(direction: SplitDirection, first: Option<MosaicNode>,
                                         second: Option<MosaicNode>, splitPercentage: real)
  {
    /** A left | right builder with no children and an even split. */
    static function Horizontal(): (b: MosaicBuilder)
      ensures b.direction == SplitDirection.Horizontal && b.first.None? && b.second.None?
      ensures b.splitPercentage == 50.0
    {
      MosaicBuilder(SplitDirection.Horizontal, None, None, 50.0)
    }

    /** A top | bottom builder with no children and an even split. */
    static function Vertical(): (b: MosaicBuilder)
      ensures b.direction == SplitDirection.Vertical && b.first.None? && b.second.None?
      ensures b.splitPercentage == 50.0
    {
      MosaicBuilder(SplitDirection.Vertical, None, None, 50.0)
    }

    /** Sets (or overwrites) the first child only. */
    function First(node: MosaicNode): (b: MosaicBuilder)
      ensures b.first == Some(node)
      ensures b.direction == direction && b.second == second && b.splitPercentage == splitPercentage
    {
      this.(first := Some(node))
    }

    /** Sets (or overwrites) the second child only. */
    function Second(node: MosaicNode): (b: MosaicBuilder)
      ensures b.second == Some(node)
      ensures b.direction == direction && b.first == first && b.splitPercentage == splitPercentage
    {
      this.(second := Some(node))
    }

    /** Left and Top name the first child, Right and Bottom the second,
        whatever the direction. */
    function Left(node: MosaicNode): (b: MosaicBuilder)
      ensures b.first == Some(node) && b.second == second
    {
      First(node)
    }

    function Right(node: MosaicNode): (b: MosaicBuilder)
      ensures b.second == Some(node) && b.first == first
    {
      Second(node)
    }

    function Top(node: MosaicNode): (b: MosaicBuilder)
      ensures b.first == Some(node) && b.second == second
    {
      First(node)
    }

    function Bottom(node: MosaicNode): (b: MosaicBuilder)
      ensures b.second == Some(node) && b.first == first
    {
      Second(node)
    }

    /** Sets the percentage, clamped into [0, 100]: a value in range is kept,
        one outside goes to the nearer end. */
    function Split(percentage: real): (b: MosaicBuilder)
      ensures 0.0 <= b.splitPercentage <= 100.0
      ensures 0.0 <= percentage <= 100.0 ==> b.splitPercentage == percentage
      ensures percentage < 0.0 ==> b.splitPercentage == 0.0
      ensures percentage > 100.0 ==> b.splitPercentage == 100.0
      ensures b.direction == direction && b.first == first && b.second == second
    {
      this.(splitPercentage := Clamp(percentage, 0.0, 100.0))
    }

    /** The tree of the builder's split; nothing while a child is unset. */
    function BuildTree(): (r: Option<MosaicNode>)
      ensures r.Some? <==> first.Some? && second.Some?
      ensures r.Some? ==> && r.value.Split? && r.value.direction == direction
                          && r.value.first == first.value && r.value.second == second.value
                          && r.value.splitPercentage == splitPercentage
                          && TileIds(r.value) == TileIds(first.value) + TileIds(second.value)
    {
      if first.Some? && second.Some? then
        Some(MosaicNode.Split(direction, first.value, second.value, splitPercentage))
      else None
    }

    /** The layout of the builder's tree, converted as `FromTree` does; its
        tiles are the first child's then the second's. */
    function Build(): (r: Option<Layout>)
      ensures r.Some? <==> first.Some? && second.Some?
      ensures r.Some? ==> GetAllTiles(r.value) == TileIds(first.value) + TileIds(second.value)
    {
      match BuildTree()
      case None => None
      case Some(tree) =>
        FromTreeTiles(tree);
        Some(FromTree(tree))
    }

    /** The layout as the engine's `build` gives it, through the conversion
        as written; it equals `Build` when neither child uses the placeholder
        name. */
    function BuildAsWritten(): (r: Option<Layout>)
      ensures r.Some? <==> first.Some? && second.Some?
      ensures r.Some? && TempTileId !in TileIds(first.value) + TileIds(second.value) ==>
                && r == Build()
                && ToTree(r.value) == BuildTree()
                && GetAllTiles(r.value) == TileIds(first.value) + TileIds(second.value)
    {
      match BuildTree()
      case None => None
      case Some(tree) =>
        FromTreeAsWrittenWhenFree(tree);
        Some(FromTreeAsWritten(tree))
    }
  }

  /** Child setters commute with each other and the last write wins. */
  lemma SettersCommute(b: MosaicBuilder, x: MosaicNode, y: MosaicNode, p: real)
    ensures b.First(x).Second(y) == b.Second(y).First(x)
    ensures b.First(x).First(y) == b.First(y) && b.Second(x).Second(y) == b.Second(y)
    ensures b.First(x).Split(p) == b.Split(p).First(x)
    ensures b.Left(x) == b.Top(x) == b.First(x) && b.Right(x) == b.Bottom(x) == b.Second(x)
  {
  }

  /** A built layout is well formed and reads back as the built tree. */
  lemma BuildModel(b: MosaicBuilder)
    requires b.first.Some? && b.second.Some?
    ensures Models(b.Build().value, Stored(b.BuildTree().value))
    ensures ToTree(b.Build().value) == b.BuildTree()
  {
    FromTreeModel(b.BuildTree().value);
    RoundTrip(b.BuildTree().value);
  }

  /** A caller tile named like the placeholder is lost by the engine's
      `build` but kept by the corrected `Build`. */
  lemma BuildAsWrittenDropsTemp()
    ensures var b := MosaicBuilder.Horizontal().Left(Tile(TempTileId)).Right(Tile("b"));
            && b.BuildAsWritten().Some? && b.Build().Some?
            && GetAllTiles(b.BuildAsWritten().value) == ["b"]
            && GetAllTiles(b.Build().value) == [TempTileId, "b"]
  {
  }

  /** The nested example: a sidebar beside an editor over a terminal. */
  lemma NestedExample()
    ensures var inner := MosaicBuilder.Vertical().Top(Tile("editor")).Bottom(Tile("terminal")).Split(70.0).BuildTree();
            && inner.Some?
            && var outer := MosaicBuilder.Horizontal().Left(Tile("sidebar")).Right(inner.value).Split(25.0);
               && outer.splitPercentage == 25.0
               && outer.Build().Some?
               && GetAllTiles(outer.Build().value) == ["sidebar", "editor", "terminal"]
  {
  }
}

=== FILE: dragdrop.dfy ===
/** Drag-and-drop: the four drop zones and how they shape a split, the pure
    cursor classifier, and the ephemeral drag session record. */
module DragDrop {
  import opened Types

  datatype DropZone = Top | Bottom | Left | Right
  {
    /** Top and bottom drops stack the panes, left and right drops put them
        side by side. */
    function SplitDirection(): (d: Types.SplitDirection)
      ensures d == Vertical <==> (this == Top || this == Bottom)
    {
      match this
      case Top => Vertical
      case Bottom => Vertical
      case Left => Horizontal
      case Right => Horizontal
    }

    /** The dragged tile goes first (top or left) for Top and Left drops. */
    predicate DraggedIsFirst()
    {
      this == Top || this == Left
    }
  }

  /** The zone that produces a given split shape: the inverse of the pair
      (SplitDirection, DraggedIsFirst). */
  function ZoneFor(direction: Types.SplitDirection, draggedFirst: bool): (z: DropZone)
    ensures z.SplitDirection() == direction && z.DraggedIsFirst() == draggedFirst
  {
    match direction
    case Vertical => if draggedFirst then Top else Bottom
    case Horizontal => if draggedFirst then Left else Right
  }

  /** Each zone is the only one with its shape, so the four zones are exactly
      the four (direction, order) combinations. */
  lemma ZoneShapeInjective(z: DropZone)
    ensures ZoneFor(z.SplitDirection(), z.DraggedIsFirst()) == z
  {
  }

  /** Width of each edge band, as a fraction of the target's size. */
  const Margin: real := 0.3

  /** Classifies a cursor position against a target rectangle. The position
      is normalised into the unit square (clamped on each axis) and compared
      with strict comparisons in the order top, bottom, left, right; what is
      left is the centre, where nothing may be dropped. */
  function CalculateDropZone(mouseX: real, mouseY: real, rectX: real, rectY: real,
                             rectWidth: real, rectHeight: real): (r: Option<DropZone>)
    requires rectWidth > 0.0 && rectHeight > 0.0
    ensures var dy := mouseY - rectY; var h := rectHeight;
            r == Some(Top) <==> dy < Margin * h
    ensures var dy := mouseY - rectY; var h := rectHeight;
            r == Some(Bottom) <==> dy > (1.0 - Margin) * h
    ensures var dx, dy := mouseX - rectX, mouseY - rectY; var w, h := rectWidth, rectHeight;
            r == Some(Left) <==> Margin * h <= dy <= (1.0 - Margin) * h && dx < Margin * w
    ensures var dx, dy := mouseX - rectX, mouseY - rectY; var w, h := rectWidth, rectHeight;
            r == Some(Right) <==> Margin * h <= dy <= (1.0 - Margin) * h && dx > (1.0 - Margin) * w
    ensures var dx, dy := mouseX - rectX, mouseY - rectY; var w, h := rectWidth, rectHeight;
            r == None <==> Margin * h <= dy <= (1.0 - Margin) * h && Margin * w <= dx <= (1.0 - Margin) * w
  {
    var relX := Clamp((mouseX - rectX) / rectWidth, 0.0, 1.0);
    var relY := Clamp((mouseY - rectY) / rectHeight, 0.0, 1.0);
    RelBelow(mouseY - rectY, rectHeight, Margin);
    RelBelow(mouseY - rectY, rectHeight, 1.0 - Margin);
    RelBelow(mouseX - rectX, rectWidth, Margin);
    RelBelow(mouseX - rectX, rectWidth, 1.0 - Margin);
    if relY < Margin then Some(Top)
    else if relY > 1.0 - Margin then Some(Bottom)
    else if relX < Margin then Some(Left)
    else if relX > 1.0 - Margin then Some(Right)
    else None
  }

  /** Dividing by a positive size preserves comparisons against a fraction. */
  lemma RelBelow(d: real, size: real, c: real)
    requires size > 0.0
    ensures d / size < c <==> d < c * size
    ensures d / size > c <==> d > c * size
  {
    assert d == (d / size) * size;
  }

  /** The classifier's documented edge cases: a cursor above the target
      reads as Top; corners go to the vertical zones; the exact centre and the
      exact 30%/70% boundary points on both axes fall through to no zone. */
  lemma DropZoneEdgeCases(x: real, y: real, w: real, h: real, mx: real)
    requires w > 0.0 && h > 0.0
    ensures CalculateDropZone(mx, y - 1.0, x, y, w, h) == Some(Top)
    ensures CalculateDropZone(x, y, x, y, w, h) == Some(Top)
    ensures CalculateDropZone(x + w, y + h, x, y, w, h) == Some(Bottom)
    ensures CalculateDropZone(x + w / 2.0, y + h / 2.0, x, y, w, h) == None
    ensures CalculateDropZone(x + 0.3 * w, y + 0.3 * h, x, y, w, h) == None
    ensures CalculateDropZone(x + 0.7 * w, y + 0.7 * h, x, y, w, h) == None
    ensures CalculateDropZone(x + 0.1 * w, y + 0.5 * h, x, y, w, h) == Some(Left)
    ensures CalculateDropZone(x + 0.5 * w, y + 0.1 * h, x, y, w, h) == Some(Top)
  {
  }

  /** The drag session: which tile is grabbed, where the cursor is, and the
      (tile, zone) pair currently hovered. Never part of a saved layout. */
  datatype DragState = DragState(draggingTileId: Option<TileId>,
                                 dragPosition: (real, real),
                                 hoverTarget: Option<(TileId, DropZone)>)
  {
    predicate IsDragging()
    {
      draggingTileId.Some?
    }

    /** Enters the dragging state for `tileId` at (x, y) with nothing hovered. */
    function StartDrag(tileId: TileId, x: real, y: real): (s: DragState)
      ensures s.IsDragging() && s.draggingTileId == Some(tileId)
      ensures s.dragPosition == (x, y) && s.hoverTarget == None
    {
      DragState(Some(tileId), (x, y), None)
    }

    function UpdatePosition(x: real, y: real): (s: DragState)
      ensures s.dragPosition == (x, y)
      ensures s.draggingTileId == draggingTileId && s.hoverTarget == hoverTarget
    {
      this.(dragPosition := (x, y))
    }

    function UpdateHover(tileId: TileId, zone: DropZone): (s: DragState)
      ensures s.hoverTarget == Some((tileId, zone))
      ensures s.draggingTileId == draggingTileId && s.dragPosition == dragPosition
    {
      this.(hoverTarget := Some((tileId, zone)))
    }

    function ClearHover(): (s: DragState)
      ensures s.hoverTarget == None
      ensures s.draggingTileId == draggingTileId && s.dragPosition == dragPosition
    {
      this.(hoverTarget := None)
    }

    /** Leaves the drag unconditionally: back to the idle default. */
    function EndDrag(): (s: DragState)
      ensures s == NewDragState()
    {
      DragState(None, (0.0, 0.0), None)
    }
  }

  /** The idle session: nothing grabbed, cursor at the origin, nothing hovered. */
  function NewDragState(): (s: DragState)
    ensures !s.IsDragging() && s.dragPosition == (0.0, 0.0) && s.hoverTarget == None
  {
    DragState(None, (0.0, 0.0), None)
  }

  /** The cursor events a host delivers during a drag session. */
  datatype DragEvent =
    | Start(tileId: TileId, x: real, y: real)
    | Move(x: real, y: real)
    | Hover(tileId: TileId, zone: DropZone)
    | Unhover
    | End

  function Step(s: DragState, e: DragEvent): DragState
  {
    match e
    case Start(t, x, y) => s.StartDrag(t, x, y)
    case Move(x, y) => s.UpdatePosition(x, y)
    case Hover(t, z) => s.UpdateHover(t, z)
    case Unhover => s.ClearHover()
    case End => s.EndDrag()
  }

  function Run(s: DragState, events: seq<DragEvent>): DragState
    decreases |events|
  {
    if events == [] then s else Run(Step(s, events[0]), events[1..])
  }

  /** The index of the last Start or End event, if any. */
  function LastToggle(events: seq<DragEvent>): (r: Option<nat>)
    ensures r.Some? ==> r.value < |events| && (events[r.value].Start? || events[r.value].End?)
    ensures r.Some? ==> forall j | r.value < j < |events| :: !events[j].Start? && !events[j].End?
    ensures r.None? ==> forall j | 0 <= j < |events| :: !events[j].Start? && !events[j].End?
  {
    if events == [] then None
    else if events[|events| - 1].Start? || events[|events| - 1].End? then Some(|events| - 1)
    else LastToggle(events[..|events| - 1])
  }

  /** The session is a two-state machine: after any sequence of events, which
      tile is being dragged is decided by the last Start or End alone; moves
      and hover changes never start, end or redirect a drag. */
  lemma {:induction false} DraggingDecidedByLastToggle(s: DragState, events: seq<DragEvent>)
    ensures var r := Run(s, events).draggingTileId;
            match LastToggle(events)
            case None => r == s.draggingTileId
            case Some(i) => r == (if events[i].Start? then Some(events[i].tileId) else None)
    decreases |events|
  {
    if events != [] {
      DraggingDecidedByLastToggle(Step(s, events[0]), events[1..]);
      var rest := events[1..];
      match LastToggle(rest)
      case None =>
        assert forall j | 0 < j < |events| :: events[j] == rest[j - 1];
        assert LastToggle(events) == (if events[0].Start? || events[0].End? then Some(0) else None);
      case Some(i) =>
        assert LastToggle(events) == Some(i + 1);
    }
  }
}

=== FILE: layoutproofs.dfy ===
/** What the arena operations do to the tree a well-formed layout stores.
    `Models(l, t)` says that layout l is a faithful arena encoding of tree t;
    each lemma here shows that an operation maps a layout storing t to one
    storing an explicitly given tree, which pins down every node of the
    result (see `ModelsDetermineNodes`). */
module LayoutProofs {
  import opened Types
  import opened Nodes
  import opened Trees
  import opened Layouts
  import DragDrop

  /** l stores t: the root is t's root, every node of t sits under its handle
      with matching child and parent handles, there are no other entries,
      handles are distinct and below the counter, and every split's bounds
      lie in [0, 100]. */
  predicate Models(l: Layout, t: Tree)
  {
    && l.root == Some(t.id)
    && Rep(l.nodes, t, None)
    && Distinct(t)
    && Bounded(t)
    && l.nodes.Keys == Ids(t)
    && IdsIssued(l)
  }

  // ---------------------------------------------------------------------
  // Reading a layout

  /** Each stored node is exactly the record of the subtree at its handle. */
  lemma ModelsDetermineNodes(l: Layout, t: Tree, k: NodeId)
    requires Models(l, t) && k in l.nodes
    ensures k in Ids(t) && l.nodes[k] == Record(Sub(t, k), ParentOf(t, k, None))
  {
    RepSub(l.nodes, t, None, k);
  }

  /** The tile walk of a stored subtree lists its leaves in pre-order. */
  lemma {:induction false} CollectLeaves(m: map<NodeId, Node>, t: Tree, parent: Option<NodeId>)
    requires Rep(m, t, parent) && Distinct(t)
    ensures CollectTiles(m, t.id) == Leaves(t)
  {
    match t
    case Leaf(_, _, _) =>
    case Fork(id, _, f, s, _, _, _, _) =>
      var rest := m - {id};
      RepKeys(m, f, Some(id));
      RepKeys(m, s, Some(id));
      RepFrame(m, rest, f, Some(id));
      RepFrame(m, rest, s, Some(id));
      CollectLeaves(rest, f, Some(id));
      CollectLeaves(rest, s, Some(id));
  }

  /** `get_all_tiles` of a well-formed layout is the stored tree's tile
      sequence. */
  lemma GetAllTilesModel(l: Layout, t: Tree)
    requires Models(l, t)
    ensures GetAllTiles(l) == Leaves(t)
  {
    CollectLeaves(l.nodes, t, None);
  }

  /** A well-formed layout has one node fewer than twice its number of
      tiles: one split per tile beyond the first. */
  lemma ModelsNodeCount(l: Layout, t: Tree)
    requires Models(l, t)
    ensures |l.nodes| + 1 == 2 * |GetAllTiles(l)|
  {
    GetAllTilesModel(l, t);
    NodeCount(t);
  }

  /** A tile key is found exactly when it is in the tile sequence, and the
      handle found is a leaf of the stored tree showing that key, whose record
      carries that handle as its own id. */
  lemma FindTileModel(l: Layout, t: Tree, x: TileId)
    requires Models(l, t)
    ensures FindTile(l.nodes, x).Some? <==> x in Leaves(t)
    ensures FindTile(l.nodes, x).Some? ==>
              var k := FindTile(l.nodes, x).value;
              && k in Ids(t) && l.nodes[k].id == k
              && Sub(t, k) == Leaf(k, x, l.nodes[k].locked)
              && l.nodes[k].parent == ParentOf(t, k, None)
  {
    var r := FindTile(l.nodes, x);
    if r.Some? {
      var k := r.value;
      RepSub(l.nodes, t, None, k);
      LeafInLeaves(t, k);
    }
    if x in Leaves(t) {
      var k := LeafOf(t, x);
      RepSub(l.nodes, t, None, k);
    }
  }

  /** A fresh layout stores the single unlocked leaf at handle 0. */
  lemma NewModels(x: TileId)
    ensures Models(New(x), Leaf(0, x, false))
    ensures GetAllTiles(New(x)) == [x] && |New(x).nodes| == 1
  {
    var l := New(x);
    assert l.nodes == map[0 := Tile(0, x, None, false)];
    GetAllTilesModel(l, Leaf(0, x, false));
  }

  /** A well-formed layout is never empty, and an empty arena has no tiles. */
  lemma EmptyHasNoTiles(l: Layout)
    ensures l.root.None? ==> GetAllTiles(l) == [] && IsEmpty(l)
    ensures (exists t :: Models(l, t)) ==> !IsEmpty(l)
  {
  }

  // ---------------------------------------------------------------------
  // Resizing

  /** Resizing touches one fork's percentage and nothing else; the tile
      sequence is unchanged. */
  lemma UpdateSplitModel(l: Layout, t: Tree, k: NodeId, p: real)
    requires Models(l, t)
    ensures k in l.nodes && l.nodes[k].Split? ==> l.nodes[k].minPercentage <= l.nodes[k].maxPercentage
    ensures var r := UpdateSplit(l, k, p);
            r.0 ==> && k in Ids(t) && Sub(t, k).Fork?
                    && var s := Sub(t, k);
                       Models(r.1, ReplaceSub(t, k, WithPercentage(s, Clamp(p, s.minPercentage, s.maxPercentage))))
    ensures GetAllTiles(UpdateSplit(l, k, p).1) == GetAllTiles(l)
  {
    var m := l.nodes;
    if k in m {
      RepSub(m, t, None, k);
    }
    var r := UpdateSplit(l, k, p);
    GetAllTilesModel(l, t);
    if r.0 {
      var s := Sub(t, k);
      var par := ParentOf(t, k, None);
      var w := WithPercentage(s, Clamp(p, s.minPercentage, s.maxPercentage));
      var m' := r.1.nodes;
      assert m'[k] == Record(w, par);
      RepKeys(m, t, None);
      RepFrame(m, m', s.first, Some(k));
      RepFrame(m, m', s.second, Some(k));
      if k != t.id {
        ParentOutside(t, k, None);
        var q := par.value;
        assert m'[q] == m[q].WithChildReplaced(k, k);
      }
      RepReplace(m, m', t, None, k, w);
      ReplaceIds(t, k, w);
      ReplaceDistinct(t, k, w);
      ReplaceBounded(t, k, w);
      var t' := ReplaceSub(t, k, w);
      ReplaceLeaves(t, k, w);
      LeavesAround(t, k);
      GetAllTilesModel(r.1, t');
    }
  }

  // ---------------------------------------------------------------------
  // Splitting a tile

  /** The fork a split puts in place of leaf k: the old leaf first, the new
      tile (handle a) second, the fork itself at handle a + 1. */
  function SplitFork(leaf: Tree, a: NodeId, d: SplitDirection, y: TileId, p: real): Tree
  {
    Fork(a + 1, d, leaf, Leaf(a, y, false), Clamp(p, MinSplit, MaxSplit), false, MinSplit, MaxSplit)
  }

  /** What a successful split of tile k does to the arena: the new tile at
      handle a and the new split at a + 1 are added, k and the new tile point
      up to the split, k's parent (or the root) points down to it, and every
      other entry is kept. */
  predicate SplitEffect(l: Layout, r: Layout, k: NodeId, d: SplitDirection, y: TileId, p: real)
    requires k in l.nodes
  {
    var a, b, par := l.nextId, l.nextId + 1, l.nodes[k].parent;
    && r.nextId == l.nextId + 2
    && r.nodes.Keys == l.nodes.Keys + {a, b}
    && (par != Some(a) ==> r.nodes[a] == Tile(a, y, Some(b), false))
    && (par != Some(b) ==> r.nodes[b] == Split(b, d, k, a, Clamp(p, MinSplit, MaxSplit), par, false, MinSplit, MaxSplit))
    && (par != Some(k) ==> r.nodes[k] == l.nodes[k].SetParent(Some(b)))
    && (par.Some? && par.value in l.nodes && par.value != k ==>
          r.nodes[par.value] == l.nodes[par.value].WithChildReplaced(k, b))
    && (forall i | i in l.nodes && i != k && par != Some(i) :: r.nodes[i] == l.nodes[i])
    && r.root == (if par.None? then Some(b) else l.root)
  }

  lemma SplitTileEffect(l: Layout, x: TileId, d: SplitDirection, y: TileId, p: real)
    requires IdsIssued(l) && FindTile(l.nodes, x).Some?
    ensures SplitTile(l, x, d, y, p).0
    ensures SplitEffect(l, SplitTile(l, x, d, y, p).1, FindTile(l.nodes, x).value, d, y, p)
  {
  }

  /** Splitting succeeds exactly for a key in the tile sequence, and the
      result stores the tree with that leaf replaced by a fork of the leaf
      and the new tile, with a clamped percentage and 20/80 bounds. */
  lemma SplitTileModel(l: Layout, t: Tree, x: TileId, d: SplitDirection, y: TileId, p: real)
    requires Models(l, t)
    ensures SplitTile(l, x, d, y, p).0 <==> x in Leaves(t)
    ensures SplitTile(l, x, d, y, p).0 ==>
              var k := FindTile(l.nodes, x).value;
              && k in Ids(t) && Sub(t, k) == Leaf(k, x, l.nodes[k].locked)
              && Models(SplitTile(l, x, d, y, p).1, ReplaceSub(t, k, SplitFork(Sub(t, k), l.nextId, d, y, p)))
  {
    FindTileModel(l, t, x);
    if x in Leaves(t) {
      SplitTileEffect(l, x, d, y, p);
      SplitTileStores(l, SplitTile(l, x, d, y, p).1, t, FindTile(l.nodes, x).value, d, y, p);
    }
  }

  /** The tree-level reading of `SplitEffect`. */
  lemma SplitTileStores(l: Layout, r: Layout, t: Tree, k: NodeId, d: SplitDirection, y: TileId, p: real)
    requires Models(l, t) && k in Ids(t) && Sub(t, k).Leaf?
    requires SplitEffect(l, r, k, d, y, p)
    ensures Models(r, ReplaceSub(t, k, SplitFork(Sub(t, k), l.nextId, d, y, p)))
  {
    var m, m' := l.nodes, r.nodes;
    var a, b := l.nextId, l.nextId + 1;
    var par := ParentOf(t, k, None);
    var leaf := Sub(t, k);
    var w := SplitFork(leaf, a, d, y, p);
    RepSub(m, t, None, k);
    if k != t.id {
      ParentOutside(t, k, None);
    }
    assert a !in m && b !in m;
    assert Rep(m', leaf, Some(b)) && Rep(m', Leaf(a, y, false), Some(b));
    assert Rep(m', w, par);
    ModelsReplace(l, r, t, k, w);
  }

  /** On the tile sequence, a split inserts the new key right after the
      split one, and the arena grows by two nodes. */
  lemma SplitTileTiles(l: Layout, t: Tree, x: TileId, d: SplitDirection, y: TileId, p: real) returns (i: nat)
    requires Models(l, t) && x in Leaves(t)
    ensures i < |GetAllTiles(l)| && GetAllTiles(l)[i] == x
    ensures GetAllTiles(SplitTile(l, x, d, y, p).1)
            == GetAllTiles(l)[..i] + [x, y] + GetAllTiles(l)[i + 1..]
    ensures |SplitTile(l, x, d, y, p).1.nodes| == |l.nodes| + 2
  {
    SplitTileModel(l, t, x, d, y, p);
    var k := FindTile(l.nodes, x).value;
    i := SplitTilesOf(l, SplitTile(l, x, d, y, p).1, t, k, SplitFork(Sub(t, k), l.nextId, d, y, p), x, y);
  }

  /** The tile-level reading of `SplitTileModel`, stated on its result. */
  lemma SplitTilesOf(l: Layout, r: Layout, t: Tree, k: NodeId, w: Tree, x: TileId, y: TileId) returns (i: nat)
    requires Models(l, t) && k in Ids(t) && Sub(t, k).Leaf? && Sub(t, k).tileId == x
    requires Leaves(w) == [x, y] && Models(r, ReplaceSub(t, k, w))
    ensures i < |GetAllTiles(l)| && GetAllTiles(l)[i] == x
    ensures GetAllTiles(r) == GetAllTiles(l)[..i] + [x, y] + GetAllTiles(l)[i + 1..]
    ensures |r.nodes| == |l.nodes| + 2
  {
    GetAllTilesModel(l, t);
    GetAllTilesModel(r, ReplaceSub(t, k, w));
    i := GrowLeaf(t, k, w, x, y);
    ModelsNodeCount(l, t);
    ModelsNodeCount(r, ReplaceSub(t, k, w));
  }

  /** Replacing leaf x by a subtree with tiles [x, y] puts y right after x. */
  lemma GrowLeaf(t: Tree, k: NodeId, w: Tree, x: TileId, y: TileId) returns (i: nat)
    requires Distinct(t) && k in Ids(t) && Sub(t, k).Leaf? && Sub(t, k).tileId == x
    requires Leaves(w) == [x, y]
    ensures i < |Leaves(t)| && Leaves(t)[i] == x
    ensures Leaves(ReplaceSub(t, k, w)) == Leaves(t)[..i] + [x, y] + Leaves(t)[i + 1..]
  {
    LeavesAround(t, k);
    ReplaceLeaves(t, k, w);
    var before, after := LeavesBefore(t, k), LeavesAfter(t, k);
    i := |before|;
    Splice(before, x, after);
  }

  /** Positions in a sequence assembled around one element. */
  lemma Splice<T>(before: seq<T>, x: T, after: seq<T>)
    ensures var s := before + [x] + after;
            s[|before|] == x && s[..|before|] == before && s[|before| + 1..] == after
  {
  }

  // ---------------------------------------------------------------------
  // Closing a tile

  /** What unlinking k from split p does to the arena entries. */
  lemma UnlinkEffect(l: Layout, k: NodeId, p: NodeId)
    requires p in l.nodes && l.nodes[p].Split?
    ensures Unlink(l, k, p).Some?
    ensures var ps := l.nodes[p];
            var sib := if ps.first == k then ps.second else ps.first;
            var g := ps.parent;
            var r := Unlink(l, k, p).value;
            && (sib in l.nodes && sib != k && sib != p && g != Some(sib) ==>
                  r.nodes[sib] == l.nodes[sib].SetParent(g))
            && (g.Some? && g.value in l.nodes && g.value != k && g.value != p && g.value != sib ==>
                  r.nodes[g.value] == l.nodes[g.value].WithChildReplaced(p, sib))
            && (forall i | i in l.nodes && i != k && i != p && i != sib && g != Some(i) ::
                  r.nodes[i] == l.nodes[i])
            && r.root == (if g.None? then Some(sib) else l.root)
  {
  }

  /** Unlinking a non-root leaf from its parent stores the pruned tree. */
  lemma UnlinkModel(l: Layout, t: Tree, k: NodeId)
    requires Models(l, t) && k in Ids(t) && k != t.id && Sub(t, k).Leaf?
    ensures ParentOf(t, k, None).Some? && k in l.nodes && l.nodes[k].parent == ParentOf(t, k, None)
    ensures Unlink(l, k, ParentOf(t, k, None).value).Some?
    ensures Models(Unlink(l, k, ParentOf(t, k, None).value).value, Prune(t, k))
  {
    ParentIsFork(t, k, None);
    ParentOutside(t, k, None);
    var q := ParentOf(t, k, None).value;
    RepSub(l.nodes, t, None, q);
    RepSub(l.nodes, t, None, k);
    UnlinkEffect(l, k, q);
    UnlinkStores(l, Unlink(l, k, q).value, t, k, q);
  }

  /** The tree-level reading of `UnlinkEffect`, stated on its result r. */
  lemma UnlinkStores(l: Layout, r: Layout, t: Tree, k: NodeId, q: NodeId)
    requires Models(l, t) && k in Ids(t) && k != t.id && Sub(t, k).Leaf?
    requires ParentOf(t, k, None) == Some(q) && q in l.nodes && l.nodes[q].Split?
    requires r.nextId == l.nextId && r.nodes.Keys == l.nodes.Keys - {k, q}
    requires var ps := l.nodes[q];
             var sib := if ps.first == k then ps.second else ps.first;
             var g := ps.parent;
             && (sib in l.nodes && sib != k && sib != q && g != Some(sib) ==>
                   r.nodes[sib] == l.nodes[sib].SetParent(g))
             && (g.Some? && g.value in l.nodes && g.value != k && g.value != q && g.value != sib ==>
                   r.nodes[g.value] == l.nodes[g.value].WithChildReplaced(q, sib))
             && (forall i | i in l.nodes && i != k && i != q && i != sib && g != Some(i) ::
                   r.nodes[i] == l.nodes[i])
             && r.root == (if g.None? then Some(sib) else l.root)
    ensures Models(r, Prune(t, k))
  {
    var m, m' := l.nodes, r.nodes;
    PruneIsReplace(t, k, None);
    var pt := Sub(t, q);
    var sib := SiblingOf(pt, k);
    var gp := ParentOf(t, q, None);
    RepSub(m, t, None, q);
    RepSub(m, t, None, k);
    if q != t.id {
      ParentOutside(t, q, None);
    }
    ParentIsFork(t, k, None);
    SiblingIds(pt, k);
    assert Rep(m, sib, Some(q));
    assert m'[sib.id] == Record(sib, gp);
    RepReparent(m, m', sib, Some(q), gp);
    assert Ids(sib) <= Ids(pt);
    assert r.nodes.Keys == (Ids(t) - Ids(pt)) + Ids(sib);
    assert r.root == Some(ReplaceSub(t, q, sib).id);
    ModelsReplace(l, r, t, q, sib);
  }

  /** The frame rule for layouts: a new layout that stores w where the
      subtree at k stood, redirects k's parent to w, leaves every other node
      alone and holds no other entries stores the tree with k replaced by w. */
  lemma ModelsReplace(l: Layout, r: Layout, t: Tree, k: NodeId, w: Tree)
    requires Models(l, t) && k in Ids(t)
    requires Rep(r.nodes, w, ParentOf(t, k, None)) && Distinct(w) && Bounded(w)
    requires Ids(w) !! (Ids(t) - Ids(Sub(t, k)))
    requires k != t.id && ParentOf(t, k, None).Some? && ParentOf(t, k, None).value in Ids(t) ==>
               var q := ParentOf(t, k, None).value;
               q in r.nodes && r.nodes[q] == l.nodes[q].WithChildReplaced(k, w.id)
    requires forall i | i in Ids(t) && i !in Ids(Sub(t, k)) && ParentOf(t, k, None) != Some(i) ::
               i in r.nodes && r.nodes[i] == l.nodes[i]
    requires r.nodes.Keys == (Ids(t) - Ids(Sub(t, k))) + Ids(w)
    requires r.root == Some(ReplaceSub(t, k, w).id) && IdsIssued(r)
    ensures Models(r, ReplaceSub(t, k, w))
  {
    RepReplace(l.nodes, r.nodes, t, None, k, w);
    ReplaceIds(t, k, w);
    ReplaceDistinct(t, k, w);
    ReplaceBounded(t, k, w);
  }

  /** Closing succeeds exactly for a key in the tile sequence whose (lowest)
      tile is unlocked. Closing the lone root tile empties the layout;
      otherwise the result stores the tree with that leaf pruned. */
  lemma CloseTileModel(l: Layout, t: Tree, x: TileId)
    requires Models(l, t)
    ensures FindTile(l.nodes, x).Some? <==> x in Leaves(t)
    ensures CloseTile(l, x).0 <==> x in Leaves(t) && !Sub(t, FindTile(l.nodes, x).value).locked
    ensures CloseTile(l, x).0 ==>
              var k := FindTile(l.nodes, x).value;
              if k == t.id then
                t == Leaf(k, x, false) && CloseTile(l, x).1 == Layout(map[], None, l.nextId)
              else
                Models(CloseTile(l, x).1, Prune(t, k))
  {
    FindTileModel(l, t, x);
    var r := CloseTile(l, x);
    if x in Leaves(t) {
      var k := FindTile(l.nodes, x).value;
      if k == t.id {
        if r.0 {
          assert r.1.nodes.Keys == {};
        }
      } else {
        UnlinkModel(l, t, k);
      }
    }
  }

  /** On the tile sequence, closing removes the closed key's entry; a
      non-root close frees exactly two nodes. */
  lemma CloseTileTiles(l: Layout, t: Tree, x: TileId) returns (i: nat)
    requires Models(l, t) && x in Leaves(t)
    ensures i < |GetAllTiles(l)| && GetAllTiles(l)[i] == x
    ensures CloseTile(l, x).0 ==>
              GetAllTiles(CloseTile(l, x).1) == GetAllTiles(l)[..i] + GetAllTiles(l)[i + 1..]
    ensures CloseTile(l, x).0 && |l.nodes| > 1 ==> |CloseTile(l, x).1.nodes| == |l.nodes| - 2
  {
    CloseTileModel(l, t, x);
    FindTileModel(l, t, x);
    GetAllTilesModel(l, t);
    var k := FindTile(l.nodes, x).value;
    var r := CloseTile(l, x);
    LeavesAround(t, k);
    var before, after := LeavesBefore(t, k), LeavesAfter(t, k);
    assert Leaves(Sub(t, k)) == [x];
    i := |before|;
    Splice(before, x, after);
    if r.0 {
      if k == t.id {
        assert l.nodes.Keys == {k};
      } else {
        PruneLeaves(t, k);
        GetAllTilesModel(r.1, Prune(t, k));
        ParentOutside(t, k, None);
        var q := ParentOf(t, k, None).value;
        ShrinkByTwo(l.nodes, r.1.nodes, k, q);
      }
    }
  }

  lemma ShrinkByTwo(m: map<NodeId, Node>, m': map<NodeId, Node>, a: NodeId, b: NodeId)
    requires m'.Keys == m.Keys - {a, b} && a in m && b in m && a != b
    ensures |m'| == |m| - 2
  {
    assert m.Keys == m'.Keys + {a} + {b};
    assert |m'.Keys + {a}| == |m'.Keys| + 1;
  }

  /** Two layouts storing the same tree have the same nodes and root. */
  lemma ModelsInjective(l: Layout, l': Layout, t: Tree)
    requires Models(l, t) && Models(l', t)
    ensures l.nodes == l'.nodes && l.root == l'.root
  {
    forall k | k in l.nodes
      ensures l.nodes[k] == l'.nodes[k]
    {
      ModelsDetermineNodes(l, t, k);
      ModelsDetermineNodes(l', t, k);
    }
  }

  /** Closing the tile a split just created restores the original layout,
      except that the two handles issued stay used. */
  lemma SplitThenClose(l: Layout, t: Tree, x: TileId, d: SplitDirection, y: TileId, p: real)
    requires Models(l, t) && x in Leaves(t) && y !in Leaves(t)
    ensures CloseTile(SplitTile(l, x, d, y, p).1, y) == (true, l.(nextId := l.nextId + 2))
  {
    FindTileModel(l, t, x);
    SplitTileEffect(l, x, d, y, p);
    var k := FindTile(l.nodes, x).value;
    SplitTileStores(l, SplitTile(l, x, d, y, p).1, t, k, d, y, p);
    CloseNewTile(l, SplitTile(l, x, d, y, p).1, t, k, x, d, y, p);
  }

  /** Closing the new tile of a split, stated on the split's result r. */
  lemma CloseNewTile(l: Layout, r: Layout, t: Tree, k: NodeId, x: TileId, d: SplitDirection, y: TileId, p: real)
    requires Models(l, t) && k in Ids(t) && Sub(t, k).Leaf? && Sub(t, k).tileId == x && y !in Leaves(t)
    requires SplitEffect(l, r, k, d, y, p)
    requires Models(r, ReplaceSub(t, k, SplitFork(Sub(t, k), l.nextId, d, y, p)))
    ensures CloseTile(r, y) == (true, l.(nextId := l.nextId + 2))
  {
    var w := SplitFork(Sub(t, k), l.nextId, d, y, p);
    var t1 := ReplaceSub(t, k, w);
    FindTileModel(r, t1, y);
    ReplaceLeaves(t, k, w);
    var a' := FindTile(r.nodes, y).value;
    FoundNewTile(l, r, t, k, x, d, y, p, a');
    RepSub(l.nodes, t, None, k);
    if k != t.id {
      ParentOutside(t, k, None);
    }
    ModelsDetermineNodes(r, t1, a');
    assert Sub(t1, a') == Leaf(a', y, false);
    PruneWrapped(t, k, w);
    ReplaceBySelf(t, k);
    CloseTileModel(r, t1, y);
    ModelsInjective(l, CloseTile(r, y).1, t);
  }

  /** The only tile showing a key absent before a split is the new one. */
  lemma FoundNewTile(l: Layout, r: Layout, t: Tree, k: NodeId, x: TileId, d: SplitDirection, y: TileId, p: real, j: NodeId)
    requires Models(l, t) && k in Ids(t) && Sub(t, k).Leaf? && Sub(t, k).tileId == x && y !in Leaves(t)
    requires SplitEffect(l, r, k, d, y, p)
    requires j in r.nodes && r.nodes[j].Tile? && r.nodes[j].tileId == y
    ensures j == l.nextId
  {
    var m := l.nodes;
    FindTileModel(l, t, y);
    LeafInLeaves(t, k);
    RepSub(m, t, None, k);
    if k != t.id {
      ParentOutside(t, k, None);
      RepSub(m, t, None, ParentOf(t, k, None).value);
    }
  }

  // ---------------------------------------------------------------------
  // Dropping a tile beside another

  /** The fork a drop puts in place of the target leaf: a 50/50 split with
      20/80 bounds, oriented and ordered by the drop zone. */
  function DropFork(dragged: Tree, target: Tree, s: NodeId, zone: DragDrop.DropZone): (w: Tree)
    ensures w.Fork? && w.id == s && w.direction == zone.SplitDirection()
    ensures w.splitPercentage == 50.0 && !w.locked && w.minPercentage == MinSplit && w.maxPercentage == MaxSplit
    ensures zone.DraggedIsFirst() ==> w.first == dragged && w.second == target
    ensures !zone.DraggedIsFirst() ==> w.first == target && w.second == dragged
  {
    if zone.DraggedIsFirst() then Fork(s, zone.SplitDirection(), dragged, target, 50.0, false, MinSplit, MaxSplit)
    else Fork(s, zone.SplitDirection(), target, dragged, 50.0, false, MinSplit, MaxSplit)
  }

  /** What grafting does to the arena entries. */
  lemma GraftEffect(l: Layout, dragged: Node, dk: NodeId, tk: NodeId, zone: DragDrop.DropZone)
    requires tk in l.nodes && dk !in l.nodes && dk < l.nextId && IdsIssued(l)
    requires var par := l.nodes[tk].parent; par != Some(tk) && (par.Some? ==> par.value in l.nodes)
    ensures var s, par, m' := l.nextId, l.nodes[tk].parent, Graft(l, dragged, dk, tk, zone).nodes;
            && m'[dk] == dragged.SetParent(Some(s))
            && m'[tk] == l.nodes[tk].SetParent(Some(s))
            && m'[s] == Split(s, zone.SplitDirection(), if zone.DraggedIsFirst() then dk else tk,
                              if zone.DraggedIsFirst() then tk else dk, 50.0, par, false, MinSplit, MaxSplit)
            && (par.Some? ==> m'[par.value] == l.nodes[par.value].WithChildReplaced(tk, s))
            && (forall i | i in l.nodes && i != tk && par != Some(i) :: m'[i] == l.nodes[i])
            && Graft(l, dragged, dk, tk, zone).root == (if par.None? then Some(s) else l.root)
  {
  }

  /** Grafting a detached tile beside a leaf of a stored tree stores the
      tree with that leaf replaced by the drop fork. */
  lemma GraftModel(l: Layout, t: Tree, dragged: Node, dk: NodeId, tk: NodeId, zone: DragDrop.DropZone)
    requires Models(l, t) && dk !in l.nodes && dk < l.nextId
    requires dragged.Tile? && dragged.id == dk
    requires tk in l.nodes && l.nodes[tk].Tile?
    ensures tk in Ids(t) && Sub(t, tk) == Leaf(tk, l.nodes[tk].tileId, l.nodes[tk].locked)
    ensures Models(Graft(l, dragged, dk, tk, zone),
                   ReplaceSub(t, tk, DropFork(Leaf(dk, dragged.tileId, dragged.locked), Sub(t, tk), l.nextId, zone)))
  {
    RepSub(l.nodes, t, None, tk);
    if tk != t.id {
      ParentOutside(t, tk, None);
    }
    GraftEffect(l, dragged, dk, tk, zone);
    GraftStores(l, t, Graft(l, dragged, dk, tk, zone), dragged, dk, tk, zone);
  }

  /** The tree-level reading of the graft's arena effect. */
  lemma GraftStores(l: Layout, t: Tree, l': Layout, dragged: Node, dk: NodeId, tk: NodeId, zone: DragDrop.DropZone)
    requires Models(l, t) && dk !in l.nodes && dk < l.nextId
    requires dragged.Tile? && dragged.id == dk
    requires tk in l.nodes && l.nodes[tk].Tile?
    requires l'.nextId == l.nextId + 1 && l'.nodes.Keys == l.nodes.Keys + {l.nextId, dk}
    requires var s, par, m' := l.nextId, l.nodes[tk].parent, l'.nodes;
             && m'[dk] == dragged.SetParent(Some(s))
             && m'[tk] == l.nodes[tk].SetParent(Some(s))
             && m'[s] == Split(s, zone.SplitDirection(), if zone.DraggedIsFirst() then dk else tk,
                               if zone.DraggedIsFirst() then tk else dk, 50.0, par, false, MinSplit, MaxSplit)
             && (par.Some? && par.value in l.nodes ==> m'[par.value] == l.nodes[par.value].WithChildReplaced(tk, s))
             && (forall i | i in l.nodes && i != tk && par != Some(i) :: m'[i] == l.nodes[i])
             && l'.root == (if par.None? then Some(s) else l.root)
    ensures tk in Ids(t)
    ensures Models(l', ReplaceSub(t, tk, DropFork(Leaf(dk, dragged.tileId, dragged.locked), Sub(t, tk), l.nextId, zone)))
  {
    var m, m' := l.nodes, l'.nodes;
    var s := l.nextId;
    RepSub(m, t, None, tk);
    var par := ParentOf(t, tk, None);
    if tk != t.id {
      ParentOutside(t, tk, None);
    }
    var target := Sub(t, tk);
    var dl := Leaf(dk, dragged.tileId, dragged.locked);
    var w := DropFork(dl, target, s, zone);
    assert s !in m && s != dk;
    assert m'[dk] == Record(dl, Some(s));
    assert m'[tk] == Record(target, Some(s));
    assert m'[s] == Record(w, par);
    assert Rep(m', dl, Some(s)) && Rep(m', target, Some(s));
    assert Rep(m', w, par);
    ModelsReplace(l, l', t, tk, w);
  }

  /** Under a well-formed layout the dragged tile of a valid drop always
      has a parent: a parentless tile is the whole tree, so the target could
      not be elsewhere. The engine's parentless branch is never taken. */
  lemma DraggedHasParent(l: Layout, t: Tree, x: TileId, y: TileId)
    requires Models(l, t) && x != y && x in Leaves(t) && y in Leaves(t)
    ensures FindTile(l.nodes, x).Some? && FindTile(l.nodes, y).Some?
    ensures var dk := FindTile(l.nodes, x).value;
            dk != t.id && l.nodes[dk].parent.Some? && dk != FindTile(l.nodes, y).value
  {
    FindTileModel(l, t, x);
    FindTileModel(l, t, y);
    var dk := FindTile(l.nodes, x).value;
    ParentOutside(t, dk, None);
  }

  /** Unlinking the dragged tile leaves every other tile's key and lock. */
  lemma TargetSurvivesUnlink(l: Layout, t: Tree, dk: NodeId, tk: NodeId)
    requires Models(l, t) && dk in Ids(t) && dk != t.id && Sub(t, dk).Leaf?
    requires tk in Ids(t) && tk != dk && Sub(t, tk).Leaf?
    ensures ParentOf(t, dk, None).Some?
    ensures var l1 := Unlink(l, dk, ParentOf(t, dk, None).value);
            && l1.Some? && tk in l1.value.nodes && l1.value.nodes[tk].Tile?
            && l1.value.nodes[tk].tileId == Sub(t, tk).tileId
            && l1.value.nodes[tk].locked == Sub(t, tk).locked
  {
    ParentOutside(t, dk, None);
    ParentIsFork(t, dk, None);
    var q := ParentOf(t, dk, None).value;
    RepSub(l.nodes, t, None, q);
    RepSub(l.nodes, t, None, tk);
    if q != t.id {
      ParentOutside(t, q, None);
      RepSub(l.nodes, t, None, ParentOf(t, q, None).value);
    }
    UnlinkEffect(l, dk, q);
    UnlinkModel(l, t, dk);
  }

  /** A drop succeeds exactly for two different keys in the tile sequence
      whose target tile is unlocked. The result stores the tree with the
      dragged leaf pruned and the target leaf replaced by the drop fork; the
      dragged leaf keeps its handle, key and lock. */
  lemma InsertModel(l: Layout, t: Tree, x: TileId, y: TileId, zone: DragDrop.DropZone)
    requires Models(l, t)
    ensures FindTile(l.nodes, x).Some? <==> x in Leaves(t)
    ensures FindTile(l.nodes, y).Some? <==> y in Leaves(t)
    ensures InsertTileWithSplit(l, x, y, zone).0 <==>
              x != y && x in Leaves(t) && y in Leaves(t) && !Sub(t, FindTile(l.nodes, y).value).locked
    ensures InsertTileWithSplit(l, x, y, zone).0 ==>
              var dk, tk := FindTile(l.nodes, x).value, FindTile(l.nodes, y).value;
              && dk != t.id && tk in Ids(Prune(t, dk))
              && Sub(Prune(t, dk), tk) == Sub(t, tk)
              && Models(InsertTileWithSplit(l, x, y, zone).1,
                        ReplaceSub(Prune(t, dk), tk, DropFork(Sub(t, dk), Sub(t, tk), l.nextId, zone)))
  {
    FindTileModel(l, t, x);
    FindTileModel(l, t, y);
    if x != y && x in Leaves(t) && y in Leaves(t) {
      DraggedHasParent(l, t, x, y);
      var dk, tk := FindTile(l.nodes, x).value, FindTile(l.nodes, y).value;
      UnlinkModel(l, t, dk);
      TargetSurvivesUnlink(l, t, dk, tk);
      var q := ParentOf(t, dk, None).value;
      var l1 := Unlink(l, dk, q).value;
      var t1 := Prune(t, dk);
      var dn := l.nodes[dk];
      var dragged := Tile(dk, dn.tileId, None, dn.locked);
      GraftModel(l1, t1, dragged, dk, tk, zone);
    }
  }

  /** Pruning leaf dk removes one entry, x, from the tile sequence. */
  lemma RemoveAt(t: Tree, dk: NodeId, x: TileId) returns (i: nat)
    requires Distinct(t) && dk in Ids(t) && dk != t.id && Sub(t, dk).Leaf? && Sub(t, dk).tileId == x
    ensures i < |Leaves(t)| && Leaves(t)[i] == x
    ensures Leaves(Prune(t, dk)) == Leaves(t)[..i] + Leaves(t)[i + 1..]
  {
    PruneLeaves(t, dk);
    var before, after := LeavesBefore(t, dk), LeavesAfter(t, dk);
    i := |before|;
    Splice(before, x, after);
  }

  /** Replacing leaf tk (key y) splices the new subtree's keys in place of y. */
  lemma ReplaceAt(t: Tree, tk: NodeId, w: Tree, y: TileId) returns (j: nat)
    requires tk in Ids(t) && Sub(t, tk).Leaf? && Sub(t, tk).tileId == y
    ensures j < |Leaves(t)| && Leaves(t)[j] == y
    ensures Leaves(ReplaceSub(t, tk, w)) == Leaves(t)[..j] + Leaves(w) + Leaves(t)[j + 1..]
  {
    LeavesAround(t, tk);
    ReplaceLeaves(t, tk, w);
    var before, after := LeavesBefore(t, tk), LeavesAfter(t, tk);
    assert Leaves(Sub(t, tk)) == [y];
    j := |before|;
    Splice(before, y, after);
  }

  /** On tile sequences, pruning leaf dk (key x) and replacing leaf tk
      (key y) of the pruned tree by a fork of the two leaves removes x and
      puts it next to y. */
  lemma MoveLeaves(t: Tree, dk: NodeId, tk: NodeId, w: Tree, x: TileId, y: TileId)
    returns (i: nat, j: nat)
    requires Distinct(t) && dk in Ids(t) && dk != t.id && Sub(t, dk).Leaf? && Sub(t, dk).tileId == x
    requires tk in Ids(Prune(t, dk)) && Sub(Prune(t, dk), tk).Leaf? && Sub(Prune(t, dk), tk).tileId == y
    requires Leaves(w) == [x, y] || Leaves(w) == [y, x]
    ensures i < |Leaves(t)| && Leaves(t)[i] == x
    ensures var rest := Leaves(t)[..i] + Leaves(t)[i + 1..];
            && j < |rest| && rest[j] == y
            && Leaves(ReplaceSub(Prune(t, dk), tk, w)) == rest[..j] + Leaves(w) + rest[j + 1..]
    ensures multiset(Leaves(ReplaceSub(Prune(t, dk), tk, w))) == multiset(Leaves(t))
  {
    var t1 := Prune(t, dk);
    i := RemoveAt(t, dk, x);
    j := ReplaceAt(t1, tk, w, y);
    MoveKeepsMultiset(Leaves(t), i, j, Leaves(w), x, y);
  }

  /** Removing x at i and then replacing y at j by a sequence holding
      exactly x and y keeps the multiset of elements. */
  lemma MoveKeepsMultiset<T>(s: seq<T>, i: nat, j: nat, mid: seq<T>, x: T, y: T)
    requires i < |s| && s[i] == x
    requires j < |s| - 1 && (s[..i] + s[i + 1..])[j] == y
    requires mid == [x, y] || mid == [y, x]
    ensures var rest := s[..i] + s[i + 1..];
            multiset(rest[..j] + mid + rest[j + 1..]) == multiset(s)
  {
    var rest := s[..i] + s[i + 1..];
    var a, b := rest[..j], rest[j + 1..];
    assert s == s[..i] + [x] + s[i + 1..];
    assert multiset(s) == multiset(s[..i]) + multiset([x]) + multiset(s[i + 1..]);
    assert multiset(rest) == multiset(s[..i]) + multiset(s[i + 1..]);
    assert rest == a + [y] + b;
    assert multiset(rest) == multiset(a) + multiset([y]) + multiset(b);
    assert multiset(mid) == multiset([x]) + multiset([y]);
    assert multiset(a + mid + b) == multiset(a) + multiset(mid) + multiset(b);
    assert multiset(a + mid + b) == multiset(rest) + multiset([x]);
    assert multiset(s) == multiset(rest) + multiset([x]);
  }

  /** On the tile sequence, a drop removes the dragged key and puts it
      directly before or after the target key, as the zone says; the
      multiset of keys is unchanged. */
  lemma InsertTiles(l: Layout, t: Tree, x: TileId, y: TileId, zone: DragDrop.DropZone) returns (i: nat, j: nat)
    requires Models(l, t) && InsertTileWithSplit(l, x, y, zone).0
    ensures i < |GetAllTiles(l)| && GetAllTiles(l)[i] == x
    ensures var tiles := GetAllTiles(l);
            var rest := tiles[..i] + tiles[i + 1..];
            var pair := if zone.DraggedIsFirst() then [x, y] else [y, x];
            && j < |rest| && rest[j] == y
            && GetAllTiles(InsertTileWithSplit(l, x, y, zone).1) == rest[..j] + pair + rest[j + 1..]
    ensures multiset(GetAllTiles(InsertTileWithSplit(l, x, y, zone).1)) == multiset(GetAllTiles(l))
  {
    InsertModel(l, t, x, y, zone);
    FindTileModel(l, t, x);
    FindTileModel(l, t, y);
    var r := InsertTileWithSplit(l, x, y, zone).1;
    var dk, tk := FindTile(l.nodes, x).value, FindTile(l.nodes, y).value;
    var w := DropFork(Sub(t, dk), Sub(t, tk), l.nextId, zone);
    GetAllTilesModel(l, t);
    GetAllTilesModel(r, ReplaceSub(Prune(t, dk), tk, w));
    i, j := MoveLeaves(t, dk, tk, w, x, y);
  }

  /** A successful drop is an unlink of the dragged tile followed by a graft
      beside the target. */
  lemma InsertSteps(l: Layout, t: Tree, x: TileId, y: TileId, zone: DragDrop.DropZone)
    requires Models(l, t) && InsertTileWithSplit(l, x, y, zone).0
    ensures FindTile(l.nodes, x).Some? && FindTile(l.nodes, y).Some?
    ensures var dk, tk := FindTile(l.nodes, x).value, FindTile(l.nodes, y).value;
            && dk != t.id && dk in Ids(t) && ParentOf(t, dk, None).Some?
            && var q := ParentOf(t, dk, None).value;
               && Unlink(l, dk, q).Some?
               && InsertTileWithSplit(l, x, y, zone).1
                  == Graft(Unlink(l, dk, q).value, Tile(dk, x, None, l.nodes[dk].locked), dk, tk, zone)
  {
    InsertModel(l, t, x, y, zone);
    DraggedHasParent(l, t, x, y);
    FindTileModel(l, t, x);
    var dk := FindTile(l.nodes, x).value;
    UnlinkModel(l, t, dk);
  }

  /** A drop frees one split and creates one: the node count is unchanged. */
  lemma InsertNodeCount(l: Layout, t: Tree, x: TileId, y: TileId, zone: DragDrop.DropZone)
    requires Models(l, t) && InsertTileWithSplit(l, x, y, zone).0
    ensures |InsertTileWithSplit(l, x, y, zone).1.nodes| == |l.nodes|
  {
    InsertSteps(l, t, x, y, zone);
    var dk := FindTile(l.nodes, x).value;
    var q := ParentOf(t, dk, None).value;
    ParentOutside(t, dk, None);
    var s := l.nextId;
    var keys := InsertTileWithSplit(l, x, y, zone).1.nodes.Keys;
    assert keys == (l.nodes.Keys - {dk, q}) + {s, dk};
    SwapOne(l.nodes.Keys, keys, dk, q, s);
  }

  lemma SwapOne(ks: set<NodeId>, ks': set<NodeId>, dk: NodeId, q: NodeId, s: NodeId)
    requires ks' == (ks - {dk, q}) + {s, dk} && dk in ks && q in ks && dk != q && s !in ks
    ensures |ks'| == |ks|
  {
    assert ks' == (ks - {q}) + {s};
    assert |ks - {q}| == |ks| - 1;
  }

  /** Dropping a tile onto its own sibling re-forms their parent split in
      place: the parent is replaced by the drop fork and nothing else in the
      tree moves. */
  lemma DragOntoSibling(l: Layout, t: Tree, x: TileId, y: TileId, zone: DragDrop.DropZone)
    requires Models(l, t) && InsertTileWithSplit(l, x, y, zone).0
    requires var dk, tk := FindTile(l.nodes, x).value, FindTile(l.nodes, y).value;
             l.nodes[dk].parent == l.nodes[tk].parent
    ensures var dk, tk := FindTile(l.nodes, x).value, FindTile(l.nodes, y).value;
            && l.nodes[dk].parent.Some? && l.nodes[dk].parent.value in Ids(t)
            && Models(InsertTileWithSplit(l, x, y, zone).1,
                      ReplaceSub(t, l.nodes[dk].parent.value, DropFork(Sub(t, dk), Sub(t, tk), l.nextId, zone)))
  {
    InsertModel(l, t, x, y, zone);
    FindTileModel(l, t, x);
    FindTileModel(l, t, y);
    var dk, tk := FindTile(l.nodes, x).value, FindTile(l.nodes, y).value;
    ParentIsFork(t, dk, None);
    PruneIsReplace(t, dk, None);
    var q := ParentOf(t, dk, None).value;
    var pt := Sub(t, q);
    ParentIsFork(t, tk, None);
    assert SiblingOf(pt, dk) == Sub(t, tk);
    var w := DropFork(Sub(t, dk), Sub(t, tk), l.nextId, zone);
    ReplaceTwice(t, q, Sub(t, tk), w);
  }
}

=== FILE: layouts.dfy ===
/** The layout arena: a map from handle to node record, an optional root and
    a handle counter that only grows. Every operation is a pure function
    returning the new layout (and, where the engine returns a success flag,
    that flag); a failed operation returns the layout unchanged. */
module Layouts {
  import opened Types
  import opened Nodes
  import DragDrop

  datatype Layout = Layout(nodes: map<NodeId, Node>, root: Option<NodeId>, nextId: nat)

  /** The placeholder tile name the tree converter uses while it builds. */
  const TempTileId: TileId := "__temp__"

  /** Every handle in use was issued by the counter. */
  predicate IdsIssued(l: Layout)
  {
    forall k | k in l.nodes :: k < l.nextId
  }

  /** A one-tile layout: handle 0 is the root tile, the counter is at 1. */
  function New(tileId: TileId): (l: Layout)
    ensures l.root == Some(0) && l.nodes.Keys == {0} && l.nextId == 1
    ensures l.nodes[0] == Tile(0, tileId, None, false)
  {
    Layout(map[0 := Tile(0, tileId, None, false)], Some(0), 1)
  }

  /** No nodes and no root. */
  function Empty(): (l: Layout)
    ensures l.nodes == map[] && l.root == None && l.nextId == 0
  {
    Layout(map[], None, 0)
  }

  predicate IsEmpty(l: Layout)
  {
    l.root.None?
  }

  /** Issues the current counter value as a handle and advances the counter. */
  function GenId(l: Layout): (r: (NodeId, Layout))
    ensures r.0 == l.nextId && r.1.nextId == l.nextId + 1
    ensures r.1.nodes == l.nodes && r.1.root == l.root
    ensures IdsIssued(l) ==> r.0 !in l.nodes && IdsIssued(r.1)
  {
    (l.nextId, l.(nextId := l.nextId + 1))
  }

  function SetRoot(l: Layout, newRoot: NodeId): (r: Layout)
    ensures r.root == Some(newRoot) && r.nodes == l.nodes && r.nextId == l.nextId
  {
    l.(root := Some(newRoot))
  }

  /** Drops every tile whose key is the placeholder name, whatever its place
      in the tree; splits are kept. */
  function RemoveTempTiles(l: Layout): (r: Layout)
    ensures r.root == l.root && r.nextId == l.nextId
    ensures forall k | k in l.nodes :: k in r.nodes <==> !(l.nodes[k].Tile? && l.nodes[k].tileId == TempTileId)
    ensures forall k | k in r.nodes :: k in l.nodes && r.nodes[k] == l.nodes[k]
  {
    l.(nodes := map k | k in l.nodes && !(l.nodes[k].Tile? && l.nodes[k].tileId == TempTileId) :: l.nodes[k])
  }

  function InsertNode(l: Layout, nodeId: NodeId, node: Node): (r: Layout)
    ensures r.nodes.Keys == l.nodes.Keys + {nodeId} && r.nodes[nodeId] == node
    ensures forall k | k in l.nodes && k != nodeId :: r.nodes[k] == l.nodes[k]
    ensures r.root == l.root && r.nextId == l.nextId
  {
    l.(nodes := l.nodes[nodeId := node])
  }

  function GetNode(l: Layout, nodeId: NodeId): (r: Option<Node>)
    ensures r.Some? <==> nodeId in l.nodes
    ensures r.Some? ==> r.value == l.nodes[nodeId]
  {
    if nodeId in l.nodes then Some(l.nodes[nodeId]) else None
  }

  /** The least element of a non-empty set of handles. */
  function Min(s: set<NodeId>): (m: NodeId)
    requires s != {}
    ensures m in s && forall k | k in s :: m <= k
  {
    MinExists(s);
    var m :| m in s && forall k | k in s :: m <= k;
    m
  }

  lemma MinExists(s: set<NodeId>)
    requires s != {}
    ensures exists m :: m in s && forall k | k in s :: m <= k
  {
    var m := LeastOf(s);
  }

  lemma {:induction false} LeastOf(s: set<NodeId>) returns (m: NodeId)
    requires s != {}
    ensures m in s && forall k | k in s :: m <= k
    decreases s
  {
    var x :| x in s;
    if s == {x} {
      m := x;
    } else {
      var m' := LeastOf(s - {x});
      m := if x < m' then x else m';
      forall k | k in s
        ensures m <= k
      {
        if k != x {
          assert k in s - {x};
        }
      }
    }
  }

  /** The handle of a tile showing `tileId`. The engine scans a hash map, so
      with duplicate keys the match is unspecified; the model resolves that
      by taking the lowest matching handle. */
  function FindTile(nodes: map<NodeId, Node>, tileId: TileId): (r: Option<NodeId>)
    ensures r.Some? ==> r.value in nodes && nodes[r.value].Tile? && nodes[r.value].tileId == tileId
    ensures r.None? <==> forall k | k in nodes :: !(nodes[k].Tile? && nodes[k].tileId == tileId)
    ensures r.Some? ==> forall k | k in nodes && nodes[k].Tile? && nodes[k].tileId == tileId :: r.value <= k
  {
    var matches := set k | k in nodes && nodes[k].Tile? && nodes[k].tileId == tileId;
    assert forall k | k in nodes && nodes[k].Tile? && nodes[k].tileId == tileId :: k in matches;
    if matches == {} then None else Some(Min(matches))
  }

  /** Resizes a split: refused for a missing handle, a tile or a locked
      split; otherwise the new percentage is clamped into the split's own
      bounds and nothing else changes. */
  function UpdateSplit(l: Layout, nodeId: NodeId, percentage: real): (r: (bool, Layout))
    requires nodeId in l.nodes && l.nodes[nodeId].Split? && !l.nodes[nodeId].locked ==>
               l.nodes[nodeId].minPercentage <= l.nodes[nodeId].maxPercentage
    ensures !r.0 <==> nodeId !in l.nodes || !l.nodes[nodeId].Split? || l.nodes[nodeId].locked
    ensures !r.0 ==> r.1 == l
    ensures r.0 ==> r.1.root == l.root && r.1.nextId == l.nextId && r.1.nodes.Keys == l.nodes.Keys
    ensures r.0 ==> forall k | k in l.nodes && k != nodeId :: r.1.nodes[k] == l.nodes[k]
    ensures r.0 ==> var n, n' := l.nodes[nodeId], r.1.nodes[nodeId];
                    && n'.Split? && n'.id == n.id && n'.direction == n.direction
                    && n'.first == n.first && n'.second == n.second && n'.parent == n.parent
                    && n'.locked == n.locked && n'.minPercentage == n.minPercentage
                    && n'.maxPercentage == n.maxPercentage
                    && n'.splitPercentage == Clamp(percentage, n.minPercentage, n.maxPercentage)
  {
    if nodeId in l.nodes && l.nodes[nodeId].Split? then
      var n := l.nodes[nodeId];
      if n.locked then (false, l)
      else
        var p := Clamp(percentage, n.minPercentage, n.maxPercentage);
        (true, l.(nodes := l.nodes[nodeId := Split(n.id, n.direction, n.first, n.second, p,
                                                   n.parent, n.locked, n.minPercentage, n.maxPercentage)]))
    else (false, l)
  }

  /** Redirects one child handle of split `parentId` from `oldChild` to
      `newChild`; no other node changes, and a missing or tile parent is
      left alone. */
  function ReplaceChild(nodes: map<NodeId, Node>, parentId: NodeId, oldChild: NodeId, newChild: NodeId): (r: map<NodeId, Node>)
    ensures r.Keys == nodes.Keys
    ensures forall k | k in nodes && k != parentId :: r[k] == nodes[k]
    ensures parentId in nodes ==> r[parentId] == nodes[parentId].WithChildReplaced(oldChild, newChild)
  {
    if parentId in nodes then nodes[parentId := nodes[parentId].WithChildReplaced(oldChild, newChild)]
    else nodes
  }

  /** Bounds every split made by splitting or dropping carries. */
  const MinSplit: real := 20.0
  const MaxSplit: real := 80.0

  /** Splits the tile showing `tileId`: a new tile for `newTileId` and a new
      split holding the old tile first and the new one second take the old
      tile's place. Refused only when no tile shows `tileId`. */
  function SplitTile(l: Layout, tileId: TileId, direction: SplitDirection, newTileId: TileId,
                     splitPercentage: real): (r: (bool, Layout))
    ensures !r.0 <==> FindTile(l.nodes, tileId).None?
    ensures !r.0 ==> r.1 == l
    ensures r.0 ==> r.1.nextId == l.nextId + 2
    ensures r.0 ==> r.1.nodes.Keys == l.nodes.Keys + {l.nextId, l.nextId + 1}
  {
    match FindTile(l.nodes, tileId)
    case None => (false, l)
    case Some(k) =>
      var parentId := l.nodes[k].parent;
      var (newTileNodeId, l1) := GenId(l);
      var (splitNodeId, l2) := GenId(l1);
      var newTile := Tile(newTileNodeId, newTileId, None, false);
      var split := Split(splitNodeId, direction, k, newTileNodeId, Clamp(splitPercentage, MinSplit, MaxSplit),
                         parentId, false, MinSplit, MaxSplit);
      var nodes1 := l2.nodes[newTileNodeId := newTile][splitNodeId := split];
      var nodes2 := if k in nodes1 then nodes1[k := nodes1[k].SetParent(Some(splitNodeId))] else nodes1;
      var nodes3 := if newTileNodeId in nodes2
                    then nodes2[newTileNodeId := nodes2[newTileNodeId].SetParent(Some(splitNodeId))]
                    else nodes2;
      match parentId
      case Some(p) => (true, l2.(nodes := ReplaceChild(nodes3, p, k, splitNodeId)))
      case None => (true, l2.(nodes := nodes3, root := Some(splitNodeId)))
  }

  /** Detaches tile `k` from its parent split `p`: k's sibling takes p's
      place under p's parent (or as root), and k and p leave the map.
      Nothing when `p` is not a split. Shared by closing and dragging. */
  function Unlink(l: Layout, k: NodeId, p: NodeId): (r: Option<Layout>)
    ensures r.None? <==> p !in l.nodes || !l.nodes[p].Split?
    ensures r.Some? ==> r.value.nextId == l.nextId && r.value.nodes.Keys == l.nodes.Keys - {k, p}
  {
    if p in l.nodes && l.nodes[p].Split? then
      var ps := l.nodes[p];
      var sibling := if ps.first == k then ps.second else ps.first;
      var grandparent := ps.parent;
      var nodes1 := if sibling in l.nodes then l.nodes[sibling := l.nodes[sibling].SetParent(grandparent)]
                    else l.nodes;
      match grandparent
      case Some(g) => Some(l.(nodes := ReplaceChild(nodes1, g, p, sibling) - {k} - {p}))
      case None => Some(l.(nodes := nodes1 - {k} - {p}, root := Some(sibling)))
    else None
  }

  /** Closes the tile showing `tileId`. Refused when there is none or it is
      locked. A parentless tile is removed and the layout becomes empty;
      otherwise the tile and its parent split go and the sibling is promoted. */
  function CloseTile(l: Layout, tileId: TileId): (r: (bool, Layout))
    ensures FindTile(l.nodes, tileId).None? ==> !r.0
    ensures FindTile(l.nodes, tileId).Some? && l.nodes[FindTile(l.nodes, tileId).value].locked ==> !r.0
    ensures !r.0 ==> r.1 == l
    ensures r.0 ==> r.1.nextId == l.nextId && FindTile(l.nodes, tileId).value !in r.1.nodes
    ensures r.0 ==> r.1.nodes.Keys < l.nodes.Keys
  {
    match FindTile(l.nodes, tileId)
    case None => (false, l)
    case Some(k) =>
      if l.nodes[k].locked then (false, l)
      else
        match l.nodes[k].parent
        case None => (true, l.(nodes := l.nodes - {k}, root := None))
        case Some(p) =>
          match Unlink(l, k, p)
          case None => (false, l)
          case Some(l') => (true, l')
  }

  /** Second half of a drop: wraps target tile `tk` in a new 50/50 split
      whose other child is the detached node `dragged` (handle `dk`). */
  function Graft(l: Layout, dragged: Node, dk: NodeId, tk: NodeId, zone: DragDrop.DropZone): (r: Layout)
    ensures r.nextId == l.nextId + 1
    ensures r.nodes.Keys == l.nodes.Keys + {l.nextId, dk}
  {
    var targetParent := if tk in l.nodes then l.nodes[tk].parent else None;
    var (splitNodeId, l1) := GenId(l);
    var first := if zone.DraggedIsFirst() then dk else tk;
    var second := if zone.DraggedIsFirst() then tk else dk;
    var split := Split(splitNodeId, zone.SplitDirection(), first, second, 50.0, targetParent,
                       false, MinSplit, MaxSplit);
    var nodes1 := l1.nodes[splitNodeId := split][dk := dragged.SetParent(Some(splitNodeId))];
    var nodes2 := if tk in nodes1 then nodes1[tk := nodes1[tk].SetParent(Some(splitNodeId))] else nodes1;
    match targetParent
    case Some(p) => l1.(nodes := ReplaceChild(nodes2, p, tk, splitNodeId))
    case None => l1.(nodes := nodes2, root := Some(splitNodeId))
  }

  /** Drag-and-drop relocation: detaches the dragged tile (keeping its
      handle, key and lock) and re-attaches it beside the target tile, on the
      side the drop zone names. Refused for a tile dropped on itself, a
      missing tile, or a locked target. */
  function InsertTileWithSplit(l: Layout, draggedTileId: TileId, targetTileId: TileId,
                               dropZone: DragDrop.DropZone): (r: (bool, Layout))
    ensures !r.0 ==> r.1 == l
    ensures draggedTileId == targetTileId ==> !r.0
    ensures FindTile(l.nodes, draggedTileId).None? || FindTile(l.nodes, targetTileId).None? ==> !r.0
    ensures FindTile(l.nodes, targetTileId).Some? && l.nodes[FindTile(l.nodes, targetTileId).value].locked ==> !r.0
    ensures r.0 ==> r.1.nextId == l.nextId + 1
  {
    if draggedTileId == targetTileId then (false, l)
    else
      match FindTile(l.nodes, draggedTileId)
      case None => (false, l)
      case Some(dk) =>
        match FindTile(l.nodes, targetTileId)
        case None => (false, l)
        case Some(tk) =>
          if l.nodes[tk].locked then (false, l)
          else
            var dn := l.nodes[dk];
            var dragged := Tile(dk, dn.tileId, None, dn.locked);
            var detached := match dn.parent
              case Some(p) => Unlink(l, dk, p)
              case None => Some(l.(nodes := l.nodes - {dk}, root := None));
            match detached
            case None => (false, l)
            case Some(l1) => (true, Graft(l1, dragged, dk, tk, dropZone))
  }

  /** Tile keys below handle `id`, first child before second. Each step
      recurses into the map without the node just visited, so the walk ends
      on any map; on a well-formed layout that removal changes nothing. */
  function CollectTiles(nodes: map<NodeId, Node>, id: NodeId): seq<TileId>
    decreases |nodes|
  {
    if id !in nodes then []
    else
      match nodes[id]
      case Tile(_, tileId, _, _) => [tileId]
      case Split(_, _, first, second, _, _, _, _, _) =>
        var rest := nodes - {id};
        assert |rest.Keys| < |nodes.Keys| by {
          assert rest.Keys == nodes.Keys - {id};
        }
        CollectTiles(rest, first) + CollectTiles(rest, second)
  }

  /** All tile keys in pre-order; empty for an empty layout. */
  function GetAllTiles(l: Layout): seq<TileId>
  {
    match l.root
    case None => []
    case Some(r) => CollectTiles(l.nodes, r)
  }
}

=== FILE: nodes.dfy ===
/** The arena's record type: a node is either a split with two child handles
    or a tile holding a content key. Both carry their own handle, a parent
    back-reference and a lock flag. */
module Nodes {
  import opened Types

  datatype Node =
    | Split(id: NodeId, direction: SplitDirection, first: NodeId, second: NodeId,
            splitPercentage: real, parent: Option<NodeId>, locked: bool,
            minPercentage: real, maxPercentage: real)
    | Tile(id: NodeId, tileId: TileId, parent: Option<NodeId>, locked: bool)
  {
    /** Overwrites the parent back-reference and nothing else. */
    function SetParent(newParent: Option<NodeId>): (n: Node)
      ensures n.parent == newParent
      ensures n.id == id && n.locked == locked
      ensures n.Split? <==> Split?
      ensures n.Split? ==> n == Split(id, direction, first, second, splitPercentage,
                                      newParent, locked, minPercentage, maxPercentage)
      ensures n.Tile? ==> n == Tile(id, tileId, newParent, locked)
    {
      match this
      case Split(id, d, f, s, p, _, lk, lo, hi) => Split(id, d, f, s, p, newParent, lk, lo, hi)
      case Tile(id, t, _, lk) => Tile(id, t, newParent, lk)
    }

    predicate IsSplit()
    {
      Split?
    }

    predicate IsTile()
    {
      Tile?
    }

    /** The two child handles of a split; nothing for a tile. */
    function Children(): (r: Option<(NodeId, NodeId)>)
      ensures r.Some? <==> IsSplit()
      ensures r.Some? ==> r.value.0 == first && r.value.1 == second
    {
      match this
      case Split(_, _, first, second, _, _, _, _, _) => Some((first, second))
      case Tile(_, _, _, _) => None
    }

    /** The per-node half of `replace_child`: a split whose first child is
        `oldChild` has it redirected to `newChild`; otherwise one whose second
        child is `oldChild` has that redirected; any other node is unchanged. */
    function WithChildReplaced(oldChild: NodeId, newChild: NodeId): (n: Node)
      ensures n.id == id && n.parent == parent && n.locked == locked
      ensures n.Split? <==> Split?
      ensures Tile? ==> n == this
      ensures Split? ==> n.direction == direction && n.splitPercentage == splitPercentage
                         && n.minPercentage == minPercentage && n.maxPercentage == maxPercentage
      ensures Split? ==> n.first == (if first == oldChild then newChild else first)
      ensures Split? ==> n.second == (if first != oldChild && second == oldChild then newChild else second)
    {
      match this
      case Split(id, d, f, s, p, par, lk, lo, hi) =>
        if f == oldChild then Split(id, d, newChild, s, p, par, lk, lo, hi)
        else if s == oldChild then Split(id, d, f, newChild, p, par, lk, lo, hi)
        else this
      case Tile(_, _, _, _) => this
    }
  }

  /** Every node is exactly one of the two kinds. */
  lemma KindsExclusive(n: Node)
    ensures n.IsSplit() != n.IsTile()
  {
  }
}

=== FILE: treeapi.dfy ===
/** The declarative tree a caller writes a layout as, and the two
    converters between it and the arena: `FromTree` numbers the nodes in
    pre-order from handle 1 (handle 0 being the placeholder the engine starts
    from), `ToTree` reads a layout back. */
module TreeApi {
  import opened Types
  import N = Nodes
  import opened Trees
  import opened Layouts
  import opened LayoutProofs

  datatype MosaicNode =
    | Split(direction: SplitDirection, first: MosaicNode, second: MosaicNode, splitPercentage: real)
    | Leaf(tileId: TileId)
  {
    /** A left | right split of two trees. */
    static function Horizontal(first: MosaicNode, second: MosaicNode, splitPercentage: real): (n: MosaicNode)
      ensures n.Split? && n.direction == SplitDirection.Horizontal && n.splitPercentage == splitPercentage
      ensures n.first == first && n.second == second
      ensures TileIds(n) == TileIds(first) + TileIds(second)
    {
      Split(SplitDirection.Horizontal, first, second, splitPercentage)
    }

    /** A top | bottom split of two trees. */
    static function Vertical(first: MosaicNode, second: MosaicNode, splitPercentage: real): (n: MosaicNode)
      ensures n.Split? && n.direction == SplitDirection.Vertical && n.splitPercentage == splitPercentage
      ensures n.first == first && n.second == second
      ensures TileIds(n) == TileIds(first) + TileIds(second)
    {
      Split(SplitDirection.Vertical, first, second, splitPercentage)
    }
  }

  /** A single-tile tree. */
  function Tile(tileId: TileId): (n: MosaicNode)
    ensures TileIds(n) == [tileId] && Size(n) == 1
  {
    MosaicNode.Leaf(tileId)
  }

  /** Number of nodes, splits and leaves alike. */
  function Size(n: MosaicNode): (r: nat)
    ensures r >= 1
  {
    match n
    case Leaf(_) => 1
    case Split(_, f, s, _) => 1 + Size(f) + Size(s)
  }

  /** Tile keys in pre-order. */
  function TileIds(n: MosaicNode): seq<TileId>
  {
    match n
    case Leaf(x) => [x]
    case Split(_, f, s, _) => TileIds(f) + TileIds(s)
  }

  /** The stored tree the converter builds from n when the counter is at a:
      handles in pre-order, every split unlocked with 20/80 bounds and the
      caller's percentage kept as given. */
  function Label(n: MosaicNode, a: nat): (t: Tree)
    ensures t.id == a
  {
    match n
    case Leaf(x) => Trees.Leaf(a, x, false)
    case Split(d, f, s, p) =>
      Fork(a, d, Label(f, a + 1), Label(s, a + 1 + Size(f)), p, false, MinSplit, MaxSplit)
  }

  /** Forgets handles, locks and bounds. */
  function Erase(t: Tree): MosaicNode
  {
    match t
    case Leaf(_, x, _) => MosaicNode.Leaf(x)
    case Fork(_, d, f, s, p, _, _, _) => Split(d, Erase(f), Erase(s), p)
  }

  /** No node is locked and every split has the default 20/80 bounds. */
  predicate Defaults(t: Tree)
  {
    match t
    case Leaf(_, _, locked) => !locked
    case Fork(_, _, f, s, _, locked, lo, hi) =>
      !locked && lo == MinSplit && hi == MaxSplit && Defaults(f) && Defaults(s)
  }

  /** A labelled tree occupies exactly its handle range, uses no handle
      twice, has valid bounds, and erases back to the tree it came from. */
  lemma {:induction false} LabelShape(n: MosaicNode, a: nat)
    ensures forall k :: k in Ids(Label(n, a)) <==> a <= k < a + Size(n)
    ensures Distinct(Label(n, a)) && Bounded(Label(n, a))
    ensures Leaves(Label(n, a)) == TileIds(n)
    ensures Erase(Label(n, a)) == n
    ensures Defaults(Label(n, a))
  {
    match n
    case Leaf(_) =>
    case Split(d, f, s, p) =>
      LabelShape(f, a + 1);
      LabelShape(s, a + 1 + Size(f));
  }

  /** Erasing keeps the tile sequence. */
  lemma {:induction false} EraseTiles(t: Tree)
    ensures TileIds(Erase(t)) == Leaves(t)
  {
    match t
    case Leaf(_, _, _) =>
    case Fork(_, _, f, s, _, _, _, _) =>
      EraseTiles(f);
      EraseTiles(s);
  }

  // ---------------------------------------------------------------------
  // Tree to layout

  /** Inserts the nodes of n below `parentId`, issuing handles in pre-order
      (a split takes its handle before its children), and returns the
      handle of n's root. */
  function InsertTreeRecursive(l: Layout, n: MosaicNode, parentId: Option<NodeId>): (r: (NodeId, Layout))
    ensures r.0 == l.nextId && r.1.nextId == l.nextId + Size(n) && r.1.root == l.root
    decreases n
  {
    var nodeId := GenId(l).0;
    var l1 := GenId(l).1;
    match n
    case Leaf(x) =>
      (nodeId, InsertNode(l1, nodeId, N.Tile(nodeId, x, parentId, false)))
    case Split(d, f, s, p) =>
      var first := InsertTreeRecursive(l1, f, Some(nodeId));
      var second := InsertTreeRecursive(first.1, s, Some(nodeId));
      (nodeId, InsertNode(second.1, nodeId, N.Split(nodeId, d, first.0, second.0, p, parentId, false, MinSplit, MaxSplit)))
  }

  /** Recursive insertion adds exactly the labelled tree, stored under the
      given parent, and leaves every existing entry alone. */
  lemma {:induction false} InsertTreeModel(l: Layout, n: MosaicNode, parentId: Option<NodeId>)
    requires IdsIssued(l)
    ensures var l' := InsertTreeRecursive(l, n, parentId).1;
            && (forall k :: k in l'.nodes <==> k in l.nodes || l.nextId <= k < l.nextId + Size(n))
            && (forall k | k in l.nodes :: l'.nodes[k] == l.nodes[k])
            && Rep(l'.nodes, Label(n, l.nextId), parentId)
            && IdsIssued(l')
    decreases n
  {
    var a := l.nextId;
    match n
    case Leaf(x) =>
      InsertLeafStep(l, x, parentId);
    case Split(d, f, s, p) =>
      var l1 := GenId(l).1;
      InsertTreeModel(l1, f, Some(a));
      var l2 := InsertTreeRecursive(l1, f, Some(a)).1;
      InsertTreeModel(l2, s, Some(a));
      var l3 := InsertTreeRecursive(l2, s, Some(a)).1;
      InsertSplitStep(l, l1, l2, l3, d, f, s, p, parentId);
  }

  lemma InsertLeafStep(l: Layout, x: TileId, parentId: Option<NodeId>)
    requires IdsIssued(l)
    ensures var a, n := l.nextId, MosaicNode.Leaf(x);
            var l' := InsertTreeRecursive(l, n, parentId).1;
            && (forall k :: k in l'.nodes <==> k in l.nodes || a <= k < a + Size(n))
            && (forall k | k in l.nodes :: l'.nodes[k] == l.nodes[k])
            && Rep(l'.nodes, Label(n, a), parentId)
            && IdsIssued(l')
  {
  }

  /** The split case of `InsertTreeModel`, given what the two recursive
      insertions do. */
  lemma InsertSplitStep(l: Layout, l1: Layout, l2: Layout, l3: Layout, d: SplitDirection,
                        f: MosaicNode, s: MosaicNode, p: real, parentId: Option<NodeId>)
    requires IdsIssued(l) && l1 == GenId(l).1
    requires && l2.nextId == l1.nextId + Size(f)
             && (forall k :: k in l2.nodes <==> k in l1.nodes || l1.nextId <= k < l1.nextId + Size(f))
             && (forall k | k in l1.nodes :: l2.nodes[k] == l1.nodes[k])
             && Rep(l2.nodes, Label(f, l1.nextId), Some(l.nextId)) && IdsIssued(l2)
    requires && l3.nextId == l2.nextId + Size(s)
             && (forall k :: k in l3.nodes <==> k in l2.nodes || l2.nextId <= k < l2.nextId + Size(s))
             && (forall k | k in l2.nodes :: l3.nodes[k] == l2.nodes[k])
             && Rep(l3.nodes, Label(s, l2.nextId), Some(l.nextId)) && IdsIssued(l3)
    ensures var a, n := l.nextId, Split(d, f, s, p);
            var l' := InsertNode(l3, a, N.Split(a, d, a + 1, l2.nextId, p, parentId, false, MinSplit, MaxSplit));
            && (forall k :: k in l'.nodes <==> k in l.nodes || a <= k < a + Size(n))
            && (forall k | k in l.nodes :: l'.nodes[k] == l.nodes[k])
            && Rep(l'.nodes, Label(n, a), parentId)
            && IdsIssued(l')
  {
    var a, b := l.nextId, l2.nextId;
    var n := Split(d, f, s, p);
    var m' := l3.nodes[a := N.Split(a, d, a + 1, b, p, parentId, false, MinSplit, MaxSplit)];
    assert a !in l3.nodes;
    InsertSplitRep(l2.nodes, l3.nodes, m', a, b, d, f, s, p, parentId);
  }

  lemma InsertSplitRep(m2: map<NodeId, N.Node>, m3: map<NodeId, N.Node>, m': map<NodeId, N.Node>, a: NodeId, b: NodeId,
                       d: SplitDirection, f: MosaicNode, s: MosaicNode, p: real, parentId: Option<NodeId>)
    requires b == a + 1 + Size(f) && a !in m3
    requires Rep(m2, Label(f, a + 1), Some(a)) && Rep(m3, Label(s, b), Some(a))
    requires forall k :: a + 1 <= k < b ==> k in m2
    requires forall k | k in m2 :: k in m3 && m3[k] == m2[k]
    requires m' == m3[a := N.Split(a, d, a + 1, b, p, parentId, false, MinSplit, MaxSplit)]
    ensures Rep(m', Label(Split(d, f, s, p), a), parentId)
  {
    LabelShape(f, a + 1);
    LabelShape(s, b);
    RepKeys(m3, Label(s, b), Some(a));
    RepFrame(m2, m', Label(f, a + 1), Some(a));
    RepFrame(m3, m', Label(s, b), Some(a));
  }

  /** The placeholder the converter starts from sits at handle 0. */
  const PlaceholderId: NodeId := 0

  /** `from_tree`: a leaf becomes a one-tile layout; a split is inserted
      after a placeholder tile, made root, and the placeholder is removed. */
  function FromTree(n: MosaicNode): Layout
  {
    match n
    case Leaf(x) => New(x)
    case Split(_, _, _, _) =>
      var (rootId, l1) := InsertTreeRecursive(New(TempTileId), n, None);
      var l2 := SetRoot(l1, rootId);
      l2.(nodes := l2.nodes - {PlaceholderId})
  }

  /** The tree a converted layout stores. */
  function Stored(n: MosaicNode): (t: Tree)
    ensures Erase(t) == n
  {
    LabelShape(n, 1);
    match n
    case Leaf(x) => Trees.Leaf(0, x, false)
    case Split(_, _, _, _) => Label(n, 1)
  }

  /** A converted layout is well formed and stores the labelled tree; the
      counter ends one past the last handle issued. */
  lemma FromTreeModel(n: MosaicNode)
    ensures Models(FromTree(n), Stored(n))
    ensures FromTree(n).nextId == (if n.Leaf? then 1 else 1 + Size(n))
  {
    match n
    case Leaf(x) =>
      NewModels(x);
    case Split(_, _, _, _) =>
      var l0 := New(TempTileId);
      var l1 := InsertTreeRecursive(l0, n, None).1;
      var l := FromTree(n);
      InsertTreeModel(l0, n, None);
      LabelShape(n, 1);
      assert 0 !in Ids(Label(n, 1));
      RepFrame(l1.nodes, l.nodes, Label(n, 1), None);
  }

  /** Size counts one split per tile beyond the first. */
  lemma {:induction false} SizeTiles(n: MosaicNode)
    ensures Size(n) + 1 == 2 * |TileIds(n)|
  {
    match n
    case Leaf(_) =>
    case Split(_, f, s, _) =>
      SizeTiles(f);
      SizeTiles(s);
  }

  /** Once the placeholder is gone, the converted layout holds exactly one
      node per node of the tree, none of them locked. */
  lemma FromTreeNodeCount(n: MosaicNode)
    ensures |FromTree(n).nodes| == Size(n)
    ensures Defaults(Stored(n))
  {
    FromTreeModel(n);
    ModelsNodeCount(FromTree(n), Stored(n));
    FromTreeTiles(n);
    SizeTiles(n);
    LabelShape(n, 1);
  }

  /** The converted layout's tiles are the tree's tiles, in order. */
  lemma FromTreeTiles(n: MosaicNode)
    ensures GetAllTiles(FromTree(n)) == TileIds(n)
  {
    FromTreeModel(n);
    GetAllTilesModel(FromTree(n), Stored(n));
    EraseTiles(Stored(n));
  }

  /** The converter stores each split's percentage exactly as given, even
      outside the 20/80 bounds it assigns, e.g. 8.0 below a minimum of 20.0. */
  lemma FromTreeKeepsPercentage(d: SplitDirection, a: TileId, b: TileId, p: real)
    ensures var l := FromTree(Split(d, MosaicNode.Leaf(a), MosaicNode.Leaf(b), p));
            && 1 in l.nodes && l.nodes[1].Split?
            && l.nodes[1].splitPercentage == p
            && l.nodes[1].minPercentage == 20.0 && l.nodes[1].maxPercentage == 80.0
  {
    var n := Split(d, MosaicNode.Leaf(a), MosaicNode.Leaf(b), p);
    FromTreeModel(n);
    RepSub(FromTree(n).nodes, Stored(n), None, 1);
  }

  // ---------------------------------------------------------------------
  // Layout to tree

  /** Reads the tree below handle `id`; a missing handle reads as the tile
      "error". Each step recurses into the map without the node just
      visited, so the walk ends on any map. */
  function NodeToTree(nodes: map<NodeId, N.Node>, id: NodeId): MosaicNode
    decreases |nodes|
  {
    if id !in nodes then MosaicNode.Leaf("error")
    else
      match nodes[id]
      case Tile(_, x, _, _) => MosaicNode.Leaf(x)
      case Split(_, d, first, second, p, _, _, _, _) =>
        var rest := nodes - {id};
        assert |rest.Keys| < |nodes.Keys| by {
          assert rest.Keys == nodes.Keys - {id};
        }
        Split(d, NodeToTree(rest, first), NodeToTree(rest, second), p)
  }

  /** `to_tree`: nothing for an empty layout, else the tree below the root. */
  function ToTree(l: Layout): (r: Option<MosaicNode>)
    ensures r.None? <==> IsEmpty(l)
  {
    match l.root
    case None => None
    case Some(rootId) => Some(NodeToTree(l.nodes, rootId))
  }

  lemma {:induction false} NodeToTreeModel(m: map<NodeId, N.Node>, t: Tree, parent: Option<NodeId>)
    requires Rep(m, t, parent) && Distinct(t)
    ensures NodeToTree(m, t.id) == Erase(t)
  {
    match t
    case Leaf(_, _, _) =>
    case Fork(id, _, f, s, _, _, _, _) =>
      var rest := m - {id};
      RepKeys(m, f, Some(id));
      RepKeys(m, s, Some(id));
      RepFrame(m, rest, f, Some(id));
      RepFrame(m, rest, s, Some(id));
      NodeToTreeModel(rest, f, Some(id));
      NodeToTreeModel(rest, s, Some(id));
  }

  /** A well-formed layout reads back as its stored tree without handles,
      locks and bounds. */
  lemma ToTreeModel(l: Layout, t: Tree)
    requires Models(l, t)
    ensures ToTree(l) == Some(Erase(t))
  {
    NodeToTreeModel(l.nodes, t, None);
  }

  /** Converting a tree to a layout and back gives the same tree. */
  lemma RoundTrip(n: MosaicNode)
    ensures ToTree(FromTree(n)) == Some(n)
  {
    FromTreeModel(n);
    ToTreeModel(FromTree(n), Stored(n));
  }

  /** Converting a well-formed layout to a tree and back gives a layout that
      reads as the same tree and lists the same tiles (handles are
      renumbered, locks and bounds reset). */
  lemma LayoutRoundTrip(l: Layout, t: Tree)
    requires Models(l, t)
    ensures ToTree(l).Some?
    ensures ToTree(FromTree(ToTree(l).value)) == ToTree(l)
    ensures GetAllTiles(FromTree(ToTree(l).value)) == GetAllTiles(l)
  {
    ToTreeModel(l, t);
    RoundTrip(Erase(t));
    FromTreeTiles(Erase(t));
    EraseTiles(t);
    GetAllTilesModel(l, t);
  }

  /** An empty layout reads as no tree. */
  lemma EmptyToTree()
    ensures ToTree(Empty()) == None
  {
  }

  // ---------------------------------------------------------------------
  // The placeholder removal as written

  /** `from_tree` as written: the placeholder is removed by dropping every
      tile whose key is the placeholder name, so a caller's own tile of that
      name is dropped too. */
  function FromTreeAsWritten(n: MosaicNode): Layout
  {
    match n
    case Leaf(x) => New(x)
    case Split(_, _, _, _) =>
      var (rootId, l1) := InsertTreeRecursive(New(TempTileId), n, None);
      RemoveTempTiles(SetRoot(l1, rootId))
  }

  /** When no tile of the tree uses the placeholder name, the code as
      written and the corrected converter agree. */
  lemma FromTreeAsWrittenAgrees(n: MosaicNode)
    requires TempTileId !in TileIds(n)
    ensures FromTreeAsWritten(n) == FromTree(n)
  {
    if n.Split? {
      var l0 := New(TempTileId);
      var l1 := InsertTreeRecursive(l0, n, None).1;
      var t := Label(n, 1);
      InsertTreeModel(l0, n, None);
      LabelShape(n, 1);
      var a, c := FromTreeAsWritten(n), FromTree(n);
      forall k | k in l1.nodes && k != 0
        ensures !(l1.nodes[k].Tile? && l1.nodes[k].tileId == TempTileId)
      {
        RepSub(l1.nodes, t, None, k);
        if Sub(t, k).Leaf? {
          LeafInLeaves(t, k);
        }
      }
      assert a.nodes.Keys == c.nodes.Keys;
    }
  }

  /** The conversion as written round-trips every tree that does not use the
      placeholder name. */
  lemma FromTreeAsWrittenRoundTrip(n: MosaicNode)
    requires TempTileId !in TileIds(n)
    ensures ToTree(FromTreeAsWritten(n)) == Some(n)
    ensures GetAllTiles(FromTreeAsWritten(n)) == TileIds(n)
  {
    FromTreeAsWrittenAgrees(n);
    RoundTrip(n);
    FromTreeTiles(n);
  }

  /** The agreement above, stated for every tree. */
  lemma FromTreeAsWrittenWhenFree(n: MosaicNode)
    ensures TempTileId !in TileIds(n) ==>
              && FromTreeAsWritten(n) == FromTree(n)
              && ToTree(FromTreeAsWritten(n)) == Some(n)
              && GetAllTiles(FromTreeAsWritten(n)) == TileIds(n)
  {
    if TempTileId !in TileIds(n) {
      FromTreeAsWrittenAgrees(n);
      FromTreeAsWrittenRoundTrip(n);
    }
  }

  /** A caller tile named like the placeholder is lost: the split keeps a
      dangling first child, the tile list misses the key, and reading the
      layout back yields the "error" tile in its place. */
  lemma TempLeafDropped()
    ensures var n := Split(SplitDirection.Horizontal, MosaicNode.Leaf(TempTileId), MosaicNode.Leaf("b"), 50.0);
            && TileIds(n) == [TempTileId, "b"]
            && GetAllTiles(FromTreeAsWritten(n)) == ["b"]
            && ToTree(FromTreeAsWritten(n)) == Some(Split(SplitDirection.Horizontal, MosaicNode.Leaf("error"), MosaicNode.Leaf("b"), 50.0))
            && GetAllTiles(FromTree(n)) == [TempTileId, "b"]
  {
    var n := Split(SplitDirection.Horizontal, MosaicNode.Leaf(TempTileId), MosaicNode.Leaf("b"), 50.0);
    var l0 := New(TempTileId);
    var l1 := InsertTreeRecursive(l0, n, None).1;
    InsertTreeModel(l0, n, None);
    var t := Label(n, 1);
    RepSub(l1.nodes, t, None, 1);
    RepSub(l1.nodes, t, None, 2);
    RepSub(l1.nodes, t, None, 3);
    var l := FromTreeAsWritten(n);
    assert l.nodes.Keys == {1, 3};
    assert l.root == Some(1);
    assert l.nodes[1] == N.Split(1, SplitDirection.Horizontal, 2, 3, 50.0, None, false, MinSplit, MaxSplit);
    assert l.nodes[3] == N.Tile(3, "b", Some(1), false);
    var rest := l.nodes - {1};
    assert rest.Keys == {3};
    assert CollectTiles(rest, 2) == [] && CollectTiles(rest, 3) == ["b"];
    assert NodeToTree(rest, 2) == MosaicNode.Leaf("error") && NodeToTree(rest, 3) == MosaicNode.Leaf("b");
    FromTreeTiles(n);
  }
}

=== FILE: trees.dfy ===
/** The abstraction the arena stands for: an inductive binary tree whose
    nodes carry the same handles and metadata as the arena records. A layout
    is well formed exactly when its map stores such a tree (see `Rep`), and
    every arena operation is specified by its effect on this tree. */
module Trees {
  import opened Types
  import N = Nodes

  datatype Tree =
    | Leaf(id: NodeId, tileId: TileId, locked: bool)
    | Fork(id: NodeId, direction: SplitDirection, first: Tree, second: Tree,
           splitPercentage: real, locked: bool, minPercentage: real, maxPercentage: real)

  /** The handles of all nodes of the tree. */
  function Ids(t: Tree): set<NodeId>
  {
    match t
    case Leaf(id, _, _) => {id}
    case Fork(id, _, f, s, _, _, _, _) => {id} + Ids(f) + Ids(s)
  }

  /** No handle is used twice. */
  predicate Distinct(t: Tree)
  {
    match t
    case Leaf(_, _, _) => true
    case Fork(id, _, f, s, _, _, _, _) =>
      id !in Ids(f) && id !in Ids(s) && Ids(f) !! Ids(s) && Distinct(f) && Distinct(s)
  }

  /** Every split's bounds are an interval inside [0, 100]. */
  predicate Bounded(t: Tree)
  {
    match t
    case Leaf(_, _, _) => true
    case Fork(_, _, f, s, _, _, lo, hi) => 0.0 <= lo <= hi <= 100.0 && Bounded(f) && Bounded(s)
  }

  /** Tile keys in pre-order, first child before second. */
  function Leaves(t: Tree): seq<TileId>
  {
    match t
    case Leaf(_, tileId, _) => [tileId]
    case Fork(_, _, f, s, _, _, _, _) => Leaves(f) + Leaves(s)
  }

  /** The arena record the root of `t` is stored as, given its parent. */
  function Record(t: Tree, parent: Option<NodeId>): N.Node
  {
    match t
    case Leaf(id, tileId, locked) => N.Tile(id, tileId, parent, locked)
    case Fork(id, d, f, s, p, locked, lo, hi) => N.Split(id, d, f.id, s.id, p, parent, locked, lo, hi)
  }

  /** The map `m` stores every node of `t` under its handle, with child
      handles and parent back-references that match the tree. */
  predicate Rep(m: map<NodeId, N.Node>, t: Tree, parent: Option<NodeId>)
  {
    && t.id in m
    && m[t.id] == Record(t, parent)
    && match t
       case Leaf(_, _, _) => true
       case Fork(id, _, f, s, _, _, _, _) => Rep(m, f, Some(id)) && Rep(m, s, Some(id))
  }

  /** The subtree rooted at handle k. */
  function Sub(t: Tree, k: NodeId): (r: Tree)
    requires k in Ids(t)
    ensures r.id == k && Ids(r) <= Ids(t)
    ensures Distinct(t) ==> Distinct(r)
    ensures Bounded(t) ==> Bounded(r)
  {
    if t.id == k then t
    else
      match t
      case Fork(_, _, f, s, _, _, _, _) => if k in Ids(f) then Sub(f, k) else Sub(s, k)
  }

  /** The parent of handle k, when the root of t has parent `parent`. */
  function ParentOf(t: Tree, k: NodeId, parent: Option<NodeId>): Option<NodeId>
    requires k in Ids(t)
  {
    if t.id == k then parent
    else
      match t
      case Fork(id, _, f, s, _, _, _, _) =>
        if k in Ids(f) then ParentOf(f, k, Some(id)) else ParentOf(s, k, Some(id))
  }

  /** `t` with the subtree rooted at handle k replaced by r. */
  function ReplaceSub(t: Tree, k: NodeId, r: Tree): (t': Tree)
    requires k in Ids(t)
    ensures t'.id == (if t.id == k then r.id else t.id)
  {
    if t.id == k then r
    else
      match t
      case Fork(id, d, f, s, p, lk, lo, hi) =>
        if k in Ids(f) then Fork(id, d, ReplaceSub(f, k, r), s, p, lk, lo, hi)
        else Fork(id, d, f, ReplaceSub(s, k, r), p, lk, lo, hi)
  }

  /** Tile keys that precede (follow) the subtree at k in pre-order. */
  function LeavesBefore(t: Tree, k: NodeId): seq<TileId>
    requires k in Ids(t)
  {
    if t.id == k then []
    else
      match t
      case Fork(_, _, f, s, _, _, _, _) =>
        if k in Ids(f) then LeavesBefore(f, k) else Leaves(f) + LeavesBefore(s, k)
  }

  function LeavesAfter(t: Tree, k: NodeId): seq<TileId>
    requires k in Ids(t)
  {
    if t.id == k then []
    else
      match t
      case Fork(_, _, f, s, _, _, _, _) =>
        if k in Ids(f) then LeavesAfter(f, k) + Leaves(s) else LeavesAfter(s, k)
  }

  /** Removing leaf k: its sibling takes the place of their parent
      ("promote-sibling" deletion). */
  function Prune(t: Tree, k: NodeId): Tree
    requires k in Ids(t) && k != t.id
  {
    match t
    case Fork(id, d, f, s, p, lk, lo, hi) =>
      if f.id == k then s
      else if s.id == k then f
      else if k in Ids(f) then Fork(id, d, Prune(f, k), s, p, lk, lo, hi)
      else Fork(id, d, f, Prune(s, k), p, lk, lo, hi)
  }

  /** A fork with its percentage replaced. */
  function WithPercentage(t: Tree, p: real): (r: Tree)
    requires t.Fork?
  {
    Fork(t.id, t.direction, t.first, t.second, p, t.locked, t.minPercentage, t.maxPercentage)
  }

  /** The child of a fork other than the one with handle k. */
  function SiblingOf(t: Tree, k: NodeId): Tree
    requires t.Fork?
  {
    if t.first.id == k then t.second else t.first
  }

  // ---------------------------------------------------------------------
  // Lemmas about the representation relation

  /** Every subtree is represented with the parent the tree gives it. */
  lemma {:induction false} RepSub(m: map<NodeId, N.Node>, t: Tree, parent: Option<NodeId>, k: NodeId)
    requires Rep(m, t, parent) && k in Ids(t)
    ensures Rep(m, Sub(t, k), ParentOf(t, k, parent))
    ensures k in m && m[k] == Record(Sub(t, k), ParentOf(t, k, parent))
  {
    if t.id != k {
      match t
      case Fork(id, _, f, s, _, _, _, _) =>
        if k in Ids(f) {
          RepSub(m, f, Some(id), k);
        } else {
          RepSub(m, s, Some(id), k);
        }
    }
  }

  /** All handles of a represented tree are keys of the map. */
  lemma {:induction false} RepKeys(m: map<NodeId, N.Node>, t: Tree, parent: Option<NodeId>)
    requires Rep(m, t, parent)
    ensures Ids(t) <= m.Keys
  {
    match t
    case Leaf(_, _, _) =>
    case Fork(id, _, f, s, _, _, _, _) =>
      RepKeys(m, f, Some(id));
      RepKeys(m, s, Some(id));
  }

  /** Representation only depends on the entries at the tree's handles. */
  lemma {:induction false} RepFrame(m: map<NodeId, N.Node>, m': map<NodeId, N.Node>, t: Tree, parent: Option<NodeId>)
    requires Rep(m, t, parent)
    requires forall i | i in Ids(t) :: i in m && i in m' && m'[i] == m[i]
    ensures Rep(m', t, parent)
  {
    match t
    case Leaf(_, _, _) =>
    case Fork(id, _, f, s, _, _, _, _) =>
      RepFrame(m, m', f, Some(id));
      RepFrame(m, m', s, Some(id));
  }

  /** Changing only the root's back-reference re-parents the whole subtree. */
  lemma RepReparent(m: map<NodeId, N.Node>, m': map<NodeId, N.Node>, t: Tree, parent: Option<NodeId>, parent': Option<NodeId>)
    requires Rep(m, t, parent) && Distinct(t)
    requires t.id in m' && m'[t.id] == Record(t, parent')
    requires forall i | i in Ids(t) && i != t.id :: i in m && i in m' && m'[i] == m[i]
    ensures Rep(m', t, parent')
  {
    match t
    case Leaf(_, _, _) =>
    case Fork(id, _, f, s, _, _, _, _) =>
      RepFrame(m, m', f, Some(id));
      RepFrame(m, m', s, Some(id));
  }

  /** The parent of a non-root handle is a strict ancestor: it lies in the
      tree but outside the handle's own subtree. */
  lemma {:induction false} ParentOutside(t: Tree, k: NodeId, parent: Option<NodeId>)
    requires Distinct(t) && k in Ids(t) && k != t.id
    ensures ParentOf(t, k, parent).Some?
    ensures ParentOf(t, k, parent).value in Ids(t)
    ensures ParentOf(t, k, parent).value !in Ids(Sub(t, k))
  {
    match t
    case Fork(id, _, f, s, _, _, _, _) =>
      if k in Ids(f) {
        if k != f.id {
          ParentOutside(f, k, Some(id));
        }
      } else {
        if k != s.id {
          ParentOutside(s, k, Some(id));
        }
      }
  }

  /** The parent of a non-root handle is a fork one of whose children is the
      handle's subtree. */
  lemma {:induction false} ParentIsFork(t: Tree, k: NodeId, parent: Option<NodeId>)
    requires Distinct(t) && k in Ids(t) && k != t.id
    ensures ParentOf(t, k, parent).Some? && ParentOf(t, k, parent).value in Ids(t)
    ensures var q := Sub(t, ParentOf(t, k, parent).value);
            q.Fork? && (q.first == Sub(t, k) || q.second == Sub(t, k))
  {
    ParentOutside(t, k, parent);
    match t
    case Fork(id, _, f, s, _, _, _, _) =>
      if k in Ids(f) {
        if k != f.id {
          ParentIsFork(f, k, Some(id));
        }
      } else {
        if k != s.id {
          ParentIsFork(s, k, Some(id));
        }
      }
  }

  /** The central frame lemma: if the new map stores r (with the parent the
      old subtree at k had), redirects k's parent to r, and leaves every
      other node outside the old subtree alone, then it stores the tree with
      the subtree at k replaced by r. */
  lemma {:induction false} RepReplace(m: map<NodeId, N.Node>, m': map<NodeId, N.Node>, t: Tree,
                                      parent: Option<NodeId>, k: NodeId, r: Tree)
    requires Rep(m, t, parent) && Distinct(t) && k in Ids(t) && Ids(t) <= m.Keys
    requires Rep(m', r, ParentOf(t, k, parent))
    requires k != t.id && ParentOf(t, k, parent).Some? && ParentOf(t, k, parent).value in Ids(t) ==>
               var q := ParentOf(t, k, parent).value;
               q in m' && m'[q] == m[q].WithChildReplaced(k, r.id)
    requires forall i | i in Ids(t) && i !in Ids(Sub(t, k)) && ParentOf(t, k, parent) != Some(i) ::
               i in m' && m'[i] == m[i]
    ensures Rep(m', ReplaceSub(t, k, r), parent)
  {
    if t.id != k {
      match t
      case Fork(id, d, f, s, p, lk, lo, hi) =>
        ParentOutside(t, k, parent);
        if k in Ids(f) {
          if k != f.id {
            ParentOutside(f, k, Some(id));
          }
          RepReplace(m, m', f, Some(id), k, r);
          RepFrame(m, m', s, Some(id));
        } else {
          if k != s.id {
            ParentOutside(s, k, Some(id));
          }
          RepReplace(m, m', s, Some(id), k, r);
          RepFrame(m, m', f, Some(id));
        }
    }
  }

  // ---------------------------------------------------------------------
  // Shape of a replaced tree

  lemma {:induction false} ReplaceIds(t: Tree, k: NodeId, r: Tree)
    requires Distinct(t) && k in Ids(t)
    ensures Ids(ReplaceSub(t, k, r)) == (Ids(t) - Ids(Sub(t, k))) + Ids(r)
  {
    if t.id != k {
      match t
      case Fork(id, d, f, s, p, lk, lo, hi) =>
        if k in Ids(f) {
          ReplaceIds(f, k, r);
        } else {
          ReplaceIds(s, k, r);
        }
    }
  }

  lemma {:induction false} ReplaceDistinct(t: Tree, k: NodeId, r: Tree)
    requires Distinct(t) && k in Ids(t) && Distinct(r)
    requires Ids(r) !! (Ids(t) - Ids(Sub(t, k)))
    ensures Distinct(ReplaceSub(t, k, r))
  {
    if t.id != k {
      match t
      case Fork(id, d, f, s, p, lk, lo, hi) =>
        if k in Ids(f) {
          ReplaceDistinct(f, k, r);
          ReplaceIds(f, k, r);
        } else {
          ReplaceDistinct(s, k, r);
          ReplaceIds(s, k, r);
        }
    }
  }

  lemma {:induction false} ReplaceBounded(t: Tree, k: NodeId, r: Tree)
    requires Bounded(t) && Bounded(r) && k in Ids(t)
    ensures Bounded(ReplaceSub(t, k, r))
  {
    if t.id != k {
      match t
      case Fork(id, d, f, s, p, lk, lo, hi) =>
        if k in Ids(f) {
          ReplaceBounded(f, k, r);
        } else {
          ReplaceBounded(s, k, r);
        }
    }
  }

  /** Regrouping a concatenation of four sequences. */
  lemma Regroup<T>(a: seq<T>, b: seq<T>, c: seq<T>, d: seq<T>)
    ensures (a + b + c) + d == a + b + (c + d)
    ensures a + (b + c + d) == (a + b) + c + d
  {
  }

  /** The tile sequence is the tiles before the subtree at k, the
      subtree's own tiles, then the tiles after it. */
  lemma {:induction false} LeavesAround(t: Tree, k: NodeId)
    requires k in Ids(t)
    ensures Leaves(t) == LeavesBefore(t, k) + Leaves(Sub(t, k)) + LeavesAfter(t, k)
  {
    if t.id != k {
      match t
      case Fork(id, d, f, s, p, lk, lo, hi) =>
        if k in Ids(f) {
          LeavesAround(f, k);
          Regroup(LeavesBefore(f, k), Leaves(Sub(f, k)), LeavesAfter(f, k), Leaves(s));
        } else {
          LeavesAround(s, k);
          Regroup(Leaves(f), LeavesBefore(s, k), Leaves(Sub(s, k)), LeavesAfter(s, k));
        }
    }
  }

  /** Replacing a subtree splices the new subtree's tiles in place of the
      old one's, leaving the tiles around it untouched. */
  lemma {:induction false} ReplaceLeaves(t: Tree, k: NodeId, r: Tree)
    requires k in Ids(t)
    ensures Leaves(ReplaceSub(t, k, r)) == LeavesBefore(t, k) + Leaves(r) + LeavesAfter(t, k)
  {
    if t.id != k {
      match t
      case Fork(id, d, f, s, p, lk, lo, hi) =>
        if k in Ids(f) {
          ReplaceLeaves(f, k, r);
          Regroup(LeavesBefore(f, k), Leaves(r), LeavesAfter(f, k), Leaves(s));
        } else {
          ReplaceLeaves(s, k, r);
          Regroup(Leaves(f), LeavesBefore(s, k), Leaves(r), LeavesAfter(s, k));
        }
    }
  }

  /** Replacing a subtree by itself changes nothing. */
  lemma {:induction false} ReplaceBySelf(t: Tree, k: NodeId)
    requires k in Ids(t)
    ensures ReplaceSub(t, k, Sub(t, k)) == t
  {
    if t.id != k {
      match t
      case Fork(id, d, f, s, p, lk, lo, hi) =>
        if k in Ids(f) {
          ReplaceBySelf(f, k);
        } else {
          ReplaceBySelf(s, k);
        }
    }
  }

  // ---------------------------------------------------------------------
  // Promote-sibling deletion

  /** Pruning leaf k is replacing k's parent by k's sibling. */
  lemma {:induction false} PruneIsReplace(t: Tree, k: NodeId, parent: Option<NodeId>)
    requires Distinct(t) && k in Ids(t) && k != t.id
    ensures ParentOf(t, k, parent).Some? && ParentOf(t, k, parent).value in Ids(t)
    ensures var q := ParentOf(t, k, parent).value;
            Sub(t, q).Fork? && Prune(t, k) == ReplaceSub(t, q, SiblingOf(Sub(t, q), k))
  {
    ParentIsFork(t, k, parent);
    match t
    case Fork(id, d, f, s, p, lk, lo, hi) =>
      if f.id == k {
      } else if s.id == k {
      } else if k in Ids(f) {
        PruneIsReplace(f, k, Some(id));
      } else {
        PruneIsReplace(s, k, Some(id));
      }
  }

  /** A fork with leaf k as a child consists of itself, k and k's sibling. */
  lemma SiblingIds(pt: Tree, k: NodeId)
    requires pt.Fork? && Distinct(pt)
    requires (pt.first.id == k && pt.first.Leaf?) || (pt.second.id == k && pt.second.Leaf?)
    ensures Ids(pt) == {pt.id, k} + Ids(SiblingOf(pt, k))
    ensures SiblingOf(pt, k).id != k && SiblingOf(pt, k).id != pt.id
  {
    assert pt.first.id in Ids(pt.first) && pt.second.id in Ids(pt.second);
  }

  /** Pruning a leaf removes exactly its one entry from the tile sequence. */
  lemma {:induction false} PruneLeaves(t: Tree, k: NodeId)
    requires Distinct(t) && k in Ids(t) && k != t.id && Sub(t, k).Leaf?
    ensures Leaves(t) == LeavesBefore(t, k) + [Sub(t, k).tileId] + LeavesAfter(t, k)
    ensures Leaves(Prune(t, k)) == LeavesBefore(t, k) + LeavesAfter(t, k)
  {
    LeavesAround(t, k);
    match t
    case Fork(id, d, f, s, p, lk, lo, hi) =>
      if f.id == k {
      } else if s.id == k {
        assert k !in Ids(f);
      } else if k in Ids(f) {
        PruneLeaves(f, k);
        assert (LeavesBefore(f, k) + LeavesAfter(f, k)) + Leaves(s)
            == LeavesBefore(f, k) + (LeavesAfter(f, k) + Leaves(s));
      } else {
        PruneLeaves(s, k);
        assert Leaves(f) + (LeavesBefore(s, k) + LeavesAfter(s, k))
            == (Leaves(f) + LeavesBefore(s, k)) + LeavesAfter(s, k);
      }
  }

  /** Pruning the second leaf of a fork that was just put in place of
      subtree k gives back the tree with the fork's first child there. */
  lemma {:induction false} PruneWrapped(t: Tree, k: NodeId, w: Tree)
    requires Distinct(t) && k in Ids(t) && w.Fork? && w.second.Leaf?
    requires Distinct(ReplaceSub(t, k, w))
    ensures var t' := ReplaceSub(t, k, w);
            w.second.id in Ids(t') && w.second.id != t'.id &&
            Prune(t', w.second.id) == ReplaceSub(t, k, w.first)
  {
    var a := w.second.id;
    ReplaceIds(t, k, w);
    if t.id != k {
      match t
      case Fork(id, d, f, s, p, lk, lo, hi) =>
        if k in Ids(f) {
          PruneWrapped(f, k, w);
          ReplaceIds(f, k, w);
        } else {
          PruneWrapped(s, k, w);
          ReplaceIds(s, k, w);
        }
    }
  }

  /** Replacing the subtree at k by x and then x by w is replacing k by w
      directly, provided x's handle occurs nowhere else. */
  lemma {:induction false} ReplaceTwice(t: Tree, k: NodeId, x: Tree, w: Tree)
    requires Distinct(t) && k in Ids(t)
    requires x.id !in Ids(t) - Ids(Sub(t, k))
    ensures x.id in Ids(ReplaceSub(t, k, x))
    ensures ReplaceSub(ReplaceSub(t, k, x), x.id, w) == ReplaceSub(t, k, w)
  {
    ReplaceIds(t, k, x);
    if t.id != k {
      match t
      case Fork(id, d, f, s, p, lk, lo, hi) =>
        if k in Ids(f) {
          ReplaceTwice(f, k, x, w);
          ReplaceIds(f, k, x);
        } else {
          ReplaceTwice(s, k, x, w);
          ReplaceIds(s, k, x);
        }
    }
  }

  // ---------------------------------------------------------------------
  // Locating tiles

  /** A leaf of the tree contributes its key to the tile sequence. */
  lemma LeafInLeaves(t: Tree, k: NodeId)
    requires k in Ids(t) && Sub(t, k).Leaf?
    ensures Sub(t, k).tileId in Leaves(t)
  {
    LeavesAround(t, k);
  }

  /** Every key in the tile sequence belongs to some leaf of the tree. */
  lemma {:induction false} LeafOf(t: Tree, x: TileId) returns (k: NodeId)
    requires Distinct(t) && x in Leaves(t)
    ensures k in Ids(t) && Sub(t, k).Leaf? && Sub(t, k).tileId == x
  {
    match t
    case Leaf(id, _, _) =>
      k := id;
    case Fork(id, _, f, s, _, _, _, _) =>
      if x in Leaves(f) {
        k := LeafOf(f, x);
        assert k != id && k in Ids(f);
      } else {
        k := LeafOf(s, x);
        assert k != id && k !in Ids(f);
      }
  }

  // ---------------------------------------------------------------------
  // Counting

  /** A full binary tree with distinct handles has one node fewer than
      twice its number of tiles. */
  lemma {:induction false} NodeCount(t: Tree)
    requires Distinct(t)
    ensures |Ids(t)| + 1 == 2 * |Leaves(t)|
  {
    match t
    case Leaf(_, _, _) =>
    case Fork(id, _, f, s, _, _, _, _) =>
      NodeCount(f);
      NodeCount(s);
      assert Ids(f) * Ids(s) == {};
      assert |Ids(f) + Ids(s)| == |Ids(f)| + |Ids(s)|;
      assert ({id} + (Ids(f) + Ids(s))) == Ids(t);
  }
}

=== FILE: types.dfy ===
/** Shared vocabulary of the layout engine: handles, split directions and the
    percentage clamp used by every resize path. */
module Types {

  /** A node handle. The engine formats handles as "node_<n>" from a counter;
      the model keeps the counter value itself. */
  type NodeId = nat

  /** A caller-chosen content key. Uniqueness is a convention, not enforced. */
  type TileId = string

  datatype Option<+T> = None | Some(value: T)

  /** Horizontal splits lay children out left | right, vertical ones top | bottom. */
  datatype SplitDirection = Horizontal | Vertical
  {
    /** The other axis. */
    function Opposite(): (d: SplitDirection)
      ensures d != this
      ensures this == Horizontal <==> d == Vertical
    {
      match this
      case Horizontal => Vertical
      case Vertical => Horizontal
    }
  }

  lemma OppositeInvolutive(d: SplitDirection)
    ensures d.Opposite().Opposite() == d
  {
  }

  /** Distance between two reals, used to characterise Clamp. */
  function Dist(x: real, y: real): real
  {
    if x <= y then y - x else x - y
  }

  /** `x.clamp(lo, hi)` on floats: the point of [lo, hi] nearest to x.
      The float version panics when lo > hi, hence the precondition. */
  function Clamp(x: real, lo: real, hi: real): (r: real)
    requires lo <= hi
    ensures lo <= r <= hi
    ensures forall y :: lo <= y <= hi ==> Dist(r, x) <= Dist(y, x)
  {
    if x < lo then lo else if x > hi then hi else x
  }
}
